=== FILE: README.md ===
# Adaptive practice round — a Dafny model

This project models the core of the practice page of *exam-anki-web*
(`src/app/practice/page.js`). A learner practises one subject in rounds
of at most ten questions. Each question is either a true/false item
(`TF`) or a self-assessed flash card (`CARD`). A round is assembled from
the learner's per-question statistics. At most one `force_repeat`
question is inserted. The rest are drawn without replacement, weighted
toward questions the learner gets wrong or marked "needs practice", and
the combination is shuffled. Each answer is followed by a familiarity
choice. That choice writes an answer record, updates the statistics
document and moves on. After the last question the page shows a summary:
total time, TF accuracy and the slowest topics.

Modules, in dependency order:

- `Common`: `Option`, `Min`/`Max`, random draws as parameters (`IsDraw`,
  `RandIndex`), and `Distinct` sequences.
- `Text`: JavaScript's `trim` and `toUpperCase`, and the page's
  `safeStr`/`safeUpper`.
- `Domain`: questions, statistics documents, per-answer records, and the
  familiarity and last-result values.
- `Shuffle`: the Fisher–Yates `shuffle`.
- `Sampler`: `weightedSampleNoReplace`, as roulette-wheel draws over a
  shrinking pool.
- `Weight`: `buildStatsMap` and `calcWeight`.
- `Round`: candidate filtering, the forced pick, the remaining pool, the
  number still needed, and the final `shuffle(...).slice(0, 10)`.
- `Summary`: `msToSec`, total time, TF correct count and accuracy, and
  the per-topic time table sorted slowest first.
- `Session`: the `answer -> feedback -> answer | summary` state machine
  (`onTFPick`, `onCardReveal`, `handleFamiliarity`, `goNext`), with an
  invariant every handler preserves.

Modelling conventions:

- Every `Math.random()` is a `real` parameter `u` with `0 <= u < 1`.
  An index draw `Math.floor(Math.random() * n)` is `RandIndex(u, n)`.
- `Date.now()` is an `int` parameter.
- Firestore reads are inputs. Firestore writes are returned as values:
  the answer document, the new statistics document, and the fields
  merged into the session document.
- A missing or falsy `q_id`, `session_id` or `user_id` is the empty
  string.
- Weights are mathematical reals. The page's JavaScript numbers are
  IEEE doubles.
- The known-type test (`Round.KnownType`) upper-cases the type without
  trimming it, as the candidate filter does.

Behaviours of the code that the model keeps as they are written:

- `calcWeight` has no discount for `mastered` questions
  (`Weight.MasteredNotDiscounted`).
- The random jitter lies in `[0, 0.5)` (`Weight.JitterBand`).
- Mastered questions are not removed from the candidate pool.
- Each weight is computed once, when the pool is built, not again before
  every draw.
- `force_repeat` questions other than the forced one can still be drawn
  by weight, so a round can hold several of them
  (`Round.SeveralForceRepeatInRound`).

## Model

| member | source | states |
|---|---|---|
| Common.RandIndex | src/app/practice/page.js:82 | an index draw `floor(u*n)` lies in `[0, n)` and is the cell of `[0, n)` that `u*n` falls into |
| Text.Trim | src/app/practice/page.js:93 | the result is an infix of the input with only whitespace cut from both ends and no whitespace left at either end |
| Text.UpperChar | src/app/practice/page.js:93 | one character upper-cased: a lower-case letter becomes its capital, any other character is kept, no lower-case letter results and whitespace stays whitespace |
| Text.TrimIdempotent | src/app/practice/page.js:96-98 | trimming twice is trimming once |
| Text.Upper | src/app/practice/page.js:93 | upper-casing keeps the length, turns every lower-case letter into the capital at the same place in the alphabet, leaves every other character alone and leaves no lower-case letter |
| Text.SafeStr | src/app/practice/page.js:96-98 | `safeStr` has no whitespace at either end and is the value with only whitespace cut from both ends |
| Text.SafeUpper | src/app/practice/page.js:92-94 | `safeUpper` is `safeStr` of the same value upper-cased character by character: same length, each character the upper-case form of the trimmed value's character at that place, so no lower-case letter and no whitespace at either end |
| Text.UpperCharIs | src/app/practice/page.js:93 | a character upper-cases to a given capital exactly when it is that capital or its lower-case letter |
| Text.UpperIsTrue | src/app/practice/page.js:93 | a string upper-cases to `TRUE` exactly when it spells "true" with each letter in either case |
| Text.SafeUpperTrueIff | src/app/practice/page.js:357 | `safeUpper(key) === "TRUE"` holds exactly when the trimmed key spells "true" in any letter case, so `" True "` is true and `"T"` or `"yes"` are not |
| Text.UpperIdempotent | src/app/practice/page.js:92-94 | upper-casing twice is upper-casing once |
| Text.SafeUpperPadded | src/app/practice/page.js:92-98 | a padded lower-case `" true\n"` trims to `"true"` and normalises to `"TRUE"`, so such an answer key still counts as true |
| Text.TrimPadded | src/app/practice/page.js:96-98 | trimming `" true\n"` gives `"true"` |
| Shuffle.Swap | src/app/practice/page.js:83 | the swap exchanges positions `i` and `j`, leaves every other position alone and keeps the multiset |
| Shuffle.Shuffle | src/app/practice/page.js:79-86 | the shuffled copy has the input's length and is a permutation of it (same multiset) |
| Shuffle.ShuffleSameElements | src/app/practice/page.js:79-86 | a value occurs in the shuffle exactly when it occurs in the input |
| Shuffle.ShuffleKeepsDistinct | src/app/practice/page.js:79-86 | shuffling a list without repeats gives a list without repeats |
| Sampler.Clamp | src/app/practice/page.js:171 | a clamped weight is never negative and equals the weight when the weight is not negative |
| Sampler.SumNonNeg | src/app/practice/page.js:174-176 | the pool total of non-negative weights is non-negative, and zero exactly when every weight is zero (the uniform fallback branch) |
| Sampler.Walk | src/app/practice/page.js:184-190 | the subtract-until-`<= 0` scan from position `i` stops at a position between `i` and the end of the pool, the end meaning no position was chosen |
| Sampler.WalkLands | src/app/practice/page.js:182-190 | for `0 <= r < total` the subtract-until-`<= 0` scan stops inside the pool, at the first index whose prefix sum reaches `r` |
| Sampler.ChooseIndex | src/app/practice/page.js:174-190 | one draw picks an index inside the pool: when the total weight is not positive it is the uniform index `floor(u * n)`; otherwise it is the inverse-CDF index of `u * total`, and never a zero-weight item when `u > 0` |
| Sampler.PositiveDrawHitsPositiveWeight | src/app/practice/page.js:184-189 | when the scan starts from a positive `r`, the index where it stops has positive weight |
| Sampler.RemoveAt | src/app/practice/page.js:179 | `splice(idx, 1)` removes exactly the element at `idx` and keeps the rest in order: earlier elements stay in place and later ones move down by one |
| Sampler.RemoveKeepsDistinct | src/app/practice/page.js:192 | splicing a chosen item out of a repeat-free pool leaves a repeat-free pool without that item |
| Sampler.Draws | src/app/practice/page.js:173-193 | the draw loop returns `min(k, pool size)` pool members, none twice |
| Sampler.SamplePositions | src/app/practice/page.js:170-195 | sampling returns `min(k, n)` distinct positions of the `n` items |
| Sampler.WeightedSampleNoReplace | src/app/practice/page.js:170-195 | the sample has `min(k, n)` elements for `n` items, all taken from the items, and no repeats when the items have none |
| Sampler.FirstPickIsInverseCdf | src/app/practice/page.js:182-191 | with a positive total, the first item picked is the first whose prefix sum of clamped weights reaches `u * total` |
| Sampler.SampleTakesAll | src/app/practice/page.js:173 | when `k` is at least the number of items, every item is picked |
| Weight.BuildStatsMap | src/app/practice/page.js:197-204 | the map has an entry for every statistics document with a non-empty `q_id`, keyed by that id, and for each id it holds the last such document |
| Weight.WrongRate | src/app/practice/page.js:207-209 | the wrong rate is 0 without attempts, lies in `[0, 1]` for valid counts, and times `attempts` gives `wrong` |
| Weight.CalcWeight | src/app/practice/page.js:206-227 | for valid counts and a non-negative teacher priority, the weight lies in `[1, 10.5 + 2*teacher_priority)` |
| Weight.JitterBand | src/app/practice/page.js:224 | randomness moves a weight by less than 0.5 above its jitter-free value, so two draws for one question differ by less than 0.5 |
| Weight.MissingStatIsFresh | src/app/practice/page.js:207-211 | a question without statistics weighs as one with zero attempts, zero wrongs and `unknown` familiarity |
| Weight.MasteredNotDiscounted | src/app/practice/page.js:211-212 | `mastered` weighs the same as `familiar` or `unknown` |
| Weight.NeedsPracticeAddsThree | src/app/practice/page.js:211-221 | marking a question `needs_practice` adds exactly 3 to its weight |
| Weight.AuthoringBoosts | src/app/practice/page.js:214-223 | `force_repeat` adds exactly 2, and raising teacher priority by `d` adds `2d` |
| Weight.MoreWrongWeighsMore | src/app/practice/page.js:207-220 | with the attempts fixed, more wrong answers never lower the weight |
| Round.Filter | src/app/practice/page.js:260-265 | filtering keeps exactly the items satisfying the predicate, never grows the list and keeps ids unique |
| Round.FilterAppend | src/app/practice/page.js:260-265 | filtering a concatenation filters each part and concatenates the results, so kept items stay in their input order |
| Round.FilterOne | src/app/practice/page.js:260-265 | a one-item list is kept when the item satisfies the predicate and emptied otherwise |
| Round.FilterKeepsAll | src/app/practice/page.js:287 | a predicate true of every item filters nothing out |
| Round.FilterDropsOne | src/app/practice/page.js:287 | a predicate false of exactly one item removes exactly one item |
| Round.Candidates | src/app/practice/page.js:260-265 | a candidate is a loaded question with an id whose upper-cased type is `TF`, `CARD` or `FLASHCARD`, and nothing else |
| Round.KnownTypeSpellings | src/app/practice/page.js:262-265 | the known-type test upper-cases without trimming: `tf`, `Card` and `flashCard` are known types, while `" TF"` and `MCQ` are not |
| Round.ForcedPick | src/app/practice/page.js:280-283 | at most one question is forced, one is forced exactly when some candidate is `force_repeat`, and it is such a candidate |
| Round.RemainingPool | src/app/practice/page.js:286-287 | the pool is exactly the candidates whose id differs from the forced one |
| Round.RemainingPoolSize | src/app/practice/page.js:286-287 | with unique ids, removing the forced question shrinks the candidates by exactly the forced count |
| Round.RoundWeights | src/app/practice/page.js:290-294 | each pool item gets its `calcWeight` from its own statistics, and that weight is at least 1 for valid inputs |
| Round.Need | src/app/practice/page.js:289 | the number still to draw is never more than ten, tops the forced questions up to at least ten, and to exactly ten when at most ten are forced |
| Round.Combined | src/app/practice/page.js:289-297 | forced plus sampled questions number at most ten, all candidates |
| Round.BuildRound | src/app/practice/page.js:260-297 | a round has at most ten questions, each a loaded question with an id and a known type |
| Round.AssembleRound | src/app/practice/page.js:297 | the shuffled and cut round has at most ten questions, each one of the forced or sampled questions |
| Round.ShuffleCut | src/app/practice/page.js:297 | `shuffle(c).slice(0, 10)` has `min(10, len(c))` entries, all from `c`, and is a permutation of `c` when `c` has at most ten entries |
| Round.RoundIsShuffledCombination | src/app/practice/page.js:297 | the round is a permutation of the forced and sampled questions |
| Round.RoundKeepsForcedPick | src/app/practice/page.js:279-297 | the forced question, when there is one, is always in the round |
| Round.PicksHaveUniqueIds | src/app/practice/page.js:290-294 | sampling a pool with unique ids gives questions with unique ids |
| Round.CombinedUniqueAndSized | src/app/practice/page.js:286-297 | with unique candidate ids, forced plus sampled questions have unique ids and number `min(10, candidates)` |
| Round.RoundUniqueAndSized | src/app/practice/page.js:286-297 | with unique candidate ids, a round has no repeated question and exactly `min(10, candidates)` questions |
| Round.CombinedHasAll | src/app/practice/page.js:286-297 | with ten or fewer candidates, forced plus sampled is all of them |
| Round.SmallCatalogRoundIsComplete | src/app/practice/page.js:289-297 | with ten or fewer candidates, every candidate is in the round |
| Round.SeveralForceRepeatInRound | src/app/practice/page.js:279-297 | the forced pick is not an upper bound: two `force_repeat` candidates in a small catalog both enter the round |
| Summary.MsToSec | src/app/practice/page.js:88-90 | `msToSec` rounds to the nearest second: `ms` lies within half a second of `1000*s` |
| Summary.RoundHalfUp | src/app/practice/page.js:545 | `Math.round` returns the integer within `[-0.5, 0.5)` of its argument |
| Summary.TotalMs | src/app/practice/page.js:147-150 | the summed read and answer time of the records is never negative when no record has a negative time |
| Summary.TfCount | src/app/practice/page.js:544 | the TF records never outnumber the records |
| Summary.TfCorrectCount | src/app/practice/page.js:486-487 | TF correct answers never outnumber TF answers |
| Summary.Accuracy | src/app/practice/page.js:486-499 | accuracy lies in `[0, 1]`, is 0 without TF answers, and times the TF count gives the TF correct count |
| Summary.AccuracyIgnoresCards | src/app/practice/page.js:486-499 | appending a CARD record changes neither TF count, TF correct count nor accuracy |
| Summary.AccuracyExample | src/app/practice/page.js:486-499 | one right and one wrong TF answer among three cards give accuracy 0.5 |
| Summary.DisplayedCorrectCount | src/app/practice/page.js:152 | the displayed correct count never exceeds the number of records |
| Summary.CardCorrectCount | src/app/practice/page.js:152 | the correct CARD records never outnumber the records |
| Summary.DisplayedCountSplits | src/app/practice/page.js:152 | the displayed correct count is the TF correct count plus the correct CARD count |
| Summary.DisplayedAccPct | src/app/practice/page.js:545 | the percentage as written is never negative, is 0 without TF records, and otherwise is the nearest integer to 100 times the displayed correct count over the TF count |
| Summary.DisplayedAccPctExceeds100 | src/app/practice/page.js:152 | as written, one correct TF answer plus one revealed card shows 2 correct of 1 TF, or 200% |
| Summary.AllCorrectIsOne | src/app/practice/page.js:497 | when every TF answer is right the accuracy is exactly 1 |
| Summary.TfAccPct | src/app/practice/page.js:544-545 | the corrected percentage is the TF accuracy times 100 rounded half up (within half a point of it); it lies in `[0, 100]`, is 0 without TF answers and 100 when every TF answer is right |
| Summary.FindTopic | src/app/practice/page.js:158 | the lookup returns the entry with the topic, or the end when no entry has it |
| Summary.Group | src/app/practice/page.js:154-166 | grouping gives one entry per distinct topic present; each entry holds its topic's record count (positive), total, reading and answering time, with total = reading + answering; the entries' counts and times add up to all records; and the entries appear in the order their topics first occur, as a `Map` iterates |
| Summary.FirstAt | src/app/practice/page.js:155-160 | the position where a topic first occurs is in range, holds a record of that topic, and no earlier record has it |
| Summary.FirstAtCount | src/app/practice/page.js:155-160 | a topic has a first position inside the records exactly when some record has that topic |
| Summary.AddRecordOrder | src/app/practice/page.js:155-166 | one pass of the loop keeps the entries in first-occurrence order: an existing topic keeps its place and a new topic goes last |
| Summary.AddRecordStep | src/app/practice/page.js:157-165 | folding in one more record keeps the grouping exact |
| Summary.StepSums | src/app/practice/page.js:161-165 | bumping one record's entry keeps topics distinct and the table's sums equal to the record count and total time |
| Summary.SumUpdate | src/app/practice/page.js:161-165 | updating one entry changes the table's count and time sums by exactly that entry's change |
| Summary.Insert | src/app/practice/page.js:167 | inserting into a slowest-first table keeps it slowest-first and adds exactly that entry |
| Summary.SortDesc | src/app/practice/page.js:167 | the sort orders entries by total time, slowest first, and is a permutation of its input |
| Summary.InsertStable | src/app/practice/page.js:167 | inserting an entry behind every entry not slower than it keeps the order among entries of any one total time, the new entry going last among its equals |
| Summary.SortDescStable | src/app/practice/page.js:167 | the sort is stable: the entries with any given total time appear in the same order as in the input, as `Array.prototype.sort` guarantees |
| Summary.SortSums | src/app/practice/page.js:167 | sorting preserves the table's count and time sums |
| Summary.TopicStats | src/app/practice/page.js:154-168 | the per-topic table is sorted slowest first |
| Summary.PermutedGroups | src/app/practice/page.js:167 | any permutation of a correct grouping is still a correct grouping |
| Summary.TopicStatsCorrect | src/app/practice/page.js:154-168 | the per-topic table is sorted slowest first, groups the records exactly (one entry per topic with its exact count, total, reading and answering time) and lists topics of equal total time in the order they first occur |
| Summary.WithTotalKeepsOrder | src/app/practice/page.js:167 | keeping only the entries of one total time preserves first-occurrence order |
| Summary.TopicStatsTieOrder | src/app/practice/page.js:167 | among topics of equal total time the sorted table keeps first-occurrence order, which decides the slowest three on ties |
| Summary.Finalize | src/app/practice/page.js:484-499 | the session fields written at the end: the correct count is the number of correct TF records (at most the TF count), the accuracy is their ratio (in `[0, 1]`), and the total seconds are within half a second of the summed time |
| Summary.Summarize | src/app/practice/page.js:543-560 | the summary as the page shows it: total seconds within half a second of the summed time; the "TF correct" figure is the TF correct count plus the correct CARD count and never exceeds the number of records; the TF count is the number of TF records; the percentage is the displayed ratio rounded (never negative, 0 without TF records); and the slowest topics are the first three of the per-topic table, slowest first |
| Summary.SlowestThree | src/app/practice/page.js:546 | the slowest topics are the first `min(3, n)` entries of the `n`-entry per-topic table, in its slowest-first order |
| Summary.CorrectedSummary | src/app/practice/page.js:543-560 | the summary with only correct TF records counted: total seconds within half a second of the summed time, TF correct is the correct TF count and TF count the TF record count (TF correct <= TF count <= records), the percentage is the rounded TF accuracy in `[0, 100]`, and the slowest topics are the first three of the per-topic table, slowest first |
| Summary.CorrectionOnlyTouchesRatio | src/app/practice/page.js:543-560 | the corrected summary differs from the shown one only in the TF ratio: same total seconds, TF count and slowest topics, and the shown count exceeds the corrected one by exactly the correct CARD records |
| Summary.SummariesDisagree | src/app/practice/page.js:152 | one right TF answer and one revealed card: the page shows 2 correct and 200%, the corrected summary 1 correct and 100% |
| Summary.CountsAgreeWithoutCards | src/app/practice/page.js:152 | without correct CARD records, counting every correct record is counting correct TF records |
| Summary.SummariesAgreeWithoutCards | src/app/practice/page.js:543-560 | without correct CARD records the summary as shown and the corrected summary are the same |
| Session.CurrentQ | src/app/practice/page.js:115 | there is a current question exactly when the index is inside the round |
| Session.ResetPerQuestion | src/app/practice/page.js:230-236 | showing a question returns to `answer` with no pending record, no first action, the card hidden and the show time set |
| Session.Start | src/app/practice/page.js:321-338 | a new round starts at index 0 in `answer`, without records, in a state satisfying the invariant |
| Session.OrNow | src/app/practice/page.js:351-354 | an empty or zero time stamp falls back to the current time |
| Session.ReadMs | src/app/practice/page.js:354 | the reading time is never negative, zero exactly when the first action is no later than the show time, and otherwise their difference |
| Session.TfRecord | src/app/practice/page.js:360-370 | the TF record copies the question's id and topic, has type `TF`, answer time 0 and user answer `TRUE` or `FALSE` after the pick, and is correct exactly when the pick agrees with whether the trimmed key spells "true" in any case |
| Session.OnTFPick | src/app/practice/page.js:348-375 | outside `answer` or past the round nothing changes; otherwise exactly one TF record for the current question is appended and made pending, with `answer_ms` 0 and `read_ms >= 0`, correct exactly when the pick matches the normalised key, and the phase becomes `feedback` |
| Session.ExactlyOnePickCorrect | src/app/practice/page.js:357-358 | of the picks TRUE and FALSE exactly one is marked correct, and TRUE is correct exactly when the normalised key is `TRUE`, that is when the trimmed key spells "true" in any case |
| Session.CardRecord | src/app/practice/page.js:388-398 | the CARD record copies the question's id and topic, is always correct, has user answer `REVEALED`, answer time 0, and a key with no whitespace at either end |
| Session.OnCardReveal | src/app/practice/page.js:378-403 | outside `answer` or past the round nothing changes; otherwise the card is revealed and one correct CARD record for the current question is appended and made pending, and the phase becomes `feedback` |
| Session.IsTFIff | src/app/practice/page.js:452 | a question counts as TF exactly when its trimmed type spells "tf" in any case; every other type, `CARD` and `FLASHCARD` included, is handled as a card |
| Session.AnswerFor | src/app/practice/page.js:410-432 | the answer document carries the session, learner, subject, question id and core topic; it copies the pending record's answer, verdict, read and answer times; its time is read plus answer time; and its type is `TF` exactly for TF questions |
| Session.UpdateStat | src/app/practice/page.js:434-476 | the document is keyed by learner and question and records the subject and core topic; attempts grow by one; wrong grows by one only for a wrong TF answer; a missing document counts from zero; `needs_practice_until` is set (to now + 24 h) exactly for `needs_practice`; `last_result` is `n/a` exactly for non-TF questions and, for TF questions, `correct` exactly when the answer was right |
| Session.UpdateKeepsCounts | src/app/practice/page.js:446-459 | an update keeps `0 <= wrong <= attempts` |
| Session.CardNeverWrong | src/app/practice/page.js:446-459 | a CARD answer never adds a wrong, and a missing document updates like one with zero counts |
| Session.MissingStatIsZero | src/app/practice/page.js:440-447 | a missing statistics document updates exactly as one with zero attempts and zero wrongs |
| Session.GoNext | src/app/practice/page.js:482-509 | after the last question the phase becomes `summary` and the session's final fields are produced; otherwise the next question is shown in `answer` |
| Session.NextState | src/app/practice/page.js:503-508 | after the last question only the phase changes, to `summary`; otherwise the next index is shown in `answer` with the records and the round kept, no pending record, the card hidden and the show time `now` |
| Session.HandleFamiliarity | src/app/practice/page.js:406-480 | without a pending record, a current question, a session or a learner nothing happens; otherwise the answer write is the answer document of the current question and pending record, the statistics write is the updated statistics document for it, and the next state and final write are those of going to the next question, so the session is finalised exactly after the last question |
| Session.TFPickKeepsInv | src/app/practice/page.js:348-375 | a TF pick preserves the invariant: records are the answered prefix of the round, one per question in order, and the pending record is the current question's |
| Session.CardRevealKeepsInv | src/app/practice/page.js:378-403 | a card reveal preserves the invariant |
| Session.FamiliarityKeepsInv | src/app/practice/page.js:406-509 | a familiarity choice preserves the invariant |
| Session.PhaseTransitions | src/app/practice/page.js:348-509 | phases move only `answer -> feedback` (by an answer) and `feedback -> answer` or `summary` (by a familiarity choice), and `summary` follows exactly the last question |
| Session.AnswerAndRateAdvances | src/app/practice/page.js:348-509 | answering the current question with the control the page offers and rating it adds one record and moves to the next question, or to `summary` after the last |
| Session.RatingOnlyWrites | src/app/practice/page.js:406-480 | the familiarity choice and the stored statistics affect only what is written: after an answer, rating moves the page exactly as `goNext` does |
| Session.AnswerAndNextStep | src/app/practice/page.js:348-509 | answering and moving on takes a state waiting for an answer one question further, or to `summary` after the last, keeping the invariant |
| Session.IterateCompletes | src/app/practice/page.js:482-509 | any step that takes every waiting state one question further ends the round in `summary`, with one record per question, after as many steps as questions remain |
| Session.AnswerKeepsInv | src/app/practice/page.js:371-374 | appending the current question's record, making it pending and entering `feedback` keeps the invariant |
| Session.AnswerCurrentStep | src/app/practice/page.js:610-635 | answering with the control the page shows (the TRUE/FALSE buttons for a TF question, the reveal button otherwise) keeps the invariant, enters `feedback` and adds one pending record |
| Session.PlayOutCompletes | src/app/practice/page.js:348-509 | answering every remaining question with the control the page shows for it and moving on ends in `summary` with one record per question of the round |
| Session.ThreeQuestionRound | src/app/practice/page.js:321-509 | a started round of three questions, each TF question answered TRUE and each other one revealed, ends in `summary` with three records |

## Left out

- Firestore I/O: the query filters `active == true`, `subject == …` and
  the `limit(800)`/`limit(2000)` caps are not modelled. The model takes
  the returned documents as its input, and the writes of
  `handleFamiliarity` and `goNext` are returned as values. The session
  document created when a round starts (`addDoc` at
  src/app/practice/page.js:328-335) is not modelled: no member returns
  it, and `Session.Start` takes the session id as given.
- Anonymous sign-in, `localStorage`, the router redirects, React
  rendering, the loading screens and the debug panel are not modelled.
  The debug panel also recomputes weights with fresh randomness.
- The encouragement message chosen from the percentage (85 / 60
  thresholds) is not modelled. It is display text only.
- Concurrency is not modelled. The handlers are atomic steps, so double
  clicks and React state being read before an update lands are out of
  scope.
- `Session.OnTFPick`: the source reads the clock up to three times in one
  handler. The model uses one `now` per handler.
- `Session.HandleFamiliarity`: the source reads the clock twice, for the
  statistics horizon and for the next question. These are separate
  parameters. `serverTimestamp()`, `user_name` and `null` defaults are
  not modelled.
- Session.HandleFamiliarity: a failed or rejected Firestore call is not
  modelled. The handler awaits `addDoc` (line 413), `getDoc` (line 442)
  and `setDoc` (line 461) before `goNext` (line 479), and the model
  treats all three as succeeding. If one throws, the page stays in
  `feedback`, possibly with the answer document already written, and a
  second familiarity click writes a second answer document. The model
  has no failure outcome, so it cannot show this.
- `Weight.CalcWeight`: IEEE double arithmetic and `NaN` are not modelled.
  Weights are exact reals. Because of that, the `|| 0` that maps `NaN` to
  0 in the clamp has no counterpart.
- `Sampler.ChooseIndex`: with exact reals the scan always stops inside
  the pool when the total is positive. So the source's fall-back to index
  0 after a full scan is not modelled. Only floating-point rounding can
  reach it.
- `Text.Upper`: only ASCII letters are upper-cased. JavaScript's full
  Unicode case mapping is not modelled.
- `Text.Trim`: removes the ECMAScript white-space and line-terminator
  code points. Surrogate pairs are not modelled.
- Values that are not strings (a numeric `q_id` passed through
  `String()`, an absent `type` becoming `""`) are modelled as strings
  from the start.

## Findings

| source | as written | input that shows it | evidently intended | confidence | as-written member | corrected member |
|---|---|---|---|---|---|---|
| src/app/practice/page.js:152 | the summary's "TF correct" count and its percentage use `correctCount` (line 152; the percentage is computed at line 545 and both are shown at line 560), which counts every record with `is_correct`, and revealed cards are always recorded as correct | a round with one correctly answered TF question and one revealed card shows 2 / 1 (200%) | count only correct TF records, as the session document's `correct_count` already does (page.js:487), so the percentage stays within 0–100 | high, not executed | Summary.DisplayedAccPctExceeds100 | Summary.CorrectedSummary |

=== FILE: common.dfy ===
/** Small shared vocabulary: an optional value, integer minimum/maximum and
    the one way the trainer turns a uniform random draw into an index. */
module Common {

  /** A value that may be absent (a missing document, a null reference). */
  datatype Option<+T> = None | Some(value: T)

  function Min(a: int, b: int): int
  {
    if a <= b then a else b
  }

  function Max(a: int, b: int): int
  {
    if a >= b then a else b
  }

  /** A draw of `Math.random()`: a real in the half-open unit interval. */
  predicate IsDraw(u: real)
  {
    0.0 <= u < 1.0
  }

  predicate AllDraws(us: seq<real>)
  {
    forall i :: 0 <= i < |us| ==> IsDraw(us[i])
  }

  /** `Math.floor(Math.random() * n)`: the uniform index the trainer uses for
      the forced pick, the sampler's fallback and every shuffle step. */
  function RandIndex(u: real, n: nat): (i: int)
    requires IsDraw(u)
    requires n > 0
    ensures 0 <= i < n
    ensures i as real <= u * n as real < i as real + 1.0
  {
    ScaledDrawBelow(u, n);
    (u * n as real).Floor
  }

  lemma ScaledDrawBelow(u: real, n: nat)
    requires IsDraw(u)
    requires n > 0
    ensures 0.0 <= u * n as real < n as real
  {
    assert (1.0 - u) * n as real > 0.0;
  }

  /** Concatenation is associative. */
  lemma ConcatAssoc<T>(a: seq<T>, b: seq<T>, c: seq<T>)
    ensures a + (b + c) == (a + b) + c
  {
  }

  /** Every element of a prefix is an element of the whole. */
  lemma PrefixMembers<T>(s: seq<T>, n: nat)
    requires n <= |s|
    ensures forall x :: x in s[..n] ==> x in s
  {
  }

  /** A non-empty sequence is its front followed by its last element. */
  lemma SnocSplit<T>(s: seq<T>)
    requires |s| > 0
    ensures s == s[..|s| - 1] + [s[|s| - 1]]
  {
  }

  ghost predicate Distinct<T>(a: seq<T>)
  {
    forall i, j :: 0 <= i < j < |a| ==> a[i] != a[j]
  }

  /** Two sequences with the same multiset have the same distinctness. */
  lemma DistinctByMultiset<T>(a: seq<T>, b: seq<T>)
    requires multiset(a) == multiset(b)
    requires Distinct(a)
    ensures Distinct(b)
  {
    forall i, j | 0 <= i < j < |b|
      ensures b[i] != b[j]
    {
      if b[i] == b[j] {
        var x := b[i];
        assert multiset(b)[x] >= 2 by {
          assert b == b[..i] + [b[i]] + b[i + 1..j] + [b[j]] + b[j + 1..];
        }
        DistinctCountOne(a, x);
        assert false;
      }
    }
  }

  lemma {:induction false} DistinctCountOne<T>(a: seq<T>, x: T)
    requires Distinct(a)
    ensures multiset(a)[x] <= 1
  {
    if |a| > 0 {
      var t := a[1..];
      assert a == [a[0]] + t;
      assert Distinct(t);
      DistinctCountOne(t, x);
      if x == a[0] {
        assert x !in t;
        assert multiset(t)[x] == 0;
      }
    }
  }
}

=== FILE: domain.dfy ===
/** The records the practice page works on: question documents, the
    per-learner statistics documents, and the in-memory answer records of a
    session. Missing document fields are given their JavaScript fallbacks
    (`""`, `0`, `false`, `unknown`) when a document is read. */
module Domain {
  import opened Common

  /** The learner's self-reported familiarity. The page only ever writes
      `Familiar` and `NeedsPractice`; `Unknown` is the reading of a missing
      field and `Mastered` can only come from outside the page. */
  datatype Familiarity = Unknown | Familiar | NeedsPractice | Mastered

  datatype LastResult = Correct | Wrong | NotApplicable

  /** A `questions` document. `qId == ""` stands for a missing (falsy)
      `q_id`; `qType` is the raw `type` field before normalisation. */
  datatype Question = Question(
    qId: string,
    qType: string,
    coreTopic: string,
    statement: string,
    answerKey: string,
    explanation: string,
    teacherPriority: real,
    forceRepeat: bool)

  /** A `user_question_stats` document for one (learner, question) pair. */
  datatype Stat = Stat(
    userId: string,
    qId: string,
    subject: string,
    coreTopic: string,
    attempts: int,
    wrong: int,
    lastResult: LastResult,
    familiarity: Familiarity,
    needsPracticeUntil: Option<int>)

  /** The `0 <= wrong <= attempts` invariant of a statistics document. */
  predicate CountsOk(s: Stat)
  {
    0 <= s.wrong <= s.attempts
  }

  datatype RecType = TF | CARD

  /** One answered question of the running session (the `rec` objects). */
  datatype Rec = Rec(
    qId: string,
    coreTopic: string,
    readMs: int,
    answerMs: int,
    isCorrect: bool,
    answerKey: string,
    explanation: string,
    userAnswer: string,
    recType: RecType)

  /** No two questions of `qs` share a `q_id`. */
  ghost predicate UniqueIds(qs: seq<Question>)
  {
    forall i, j :: 0 <= i < j < |qs| ==> qs[i].qId != qs[j].qId
  }

  /** Unique ids means distinct questions, no two of which share an id: a
      statement about membership only, so any rearrangement keeps it. */
  lemma UniqueIdsByMembers(a: seq<Question>, b: seq<Question>)
    requires UniqueIds(a)
    requires Distinct(b)
    requires forall x :: x in b ==> x in a
    ensures UniqueIds(b)
  {
    forall i, j | 0 <= i < j < |b|
      ensures b[i].qId != b[j].qId
    {
      var x, y := b[i], b[j];
      assert x != y;
      assert x in a && y in a;
      var i' :| 0 <= i' < |a| && a[i'] == x;
      var j' :| 0 <= j' < |a| && a[j'] == y;
      assert i' != j';
    }
  }

  lemma UniqueIdsDistinct(a: seq<Question>)
    requires UniqueIds(a)
    ensures Distinct(a)
  {
  }
}

=== FILE: round.dfy ===
/** Round assembly in the loading effect (page.js:260-297): filter the
    catalog to candidates, take at most one forced pick among the
    `force_repeat` candidates, sample the rest by weight from every other
    candidate, shuffle the lot and keep at most ten. */
module Round {
  import opened Common
  import opened Domain
  import opened Text
  import Sampler
  import Shuffle
  import Weight

  const RoundSize: nat := 10

  /** Order-preserving `Array.prototype.filter`. */
  function Filter(qs: seq<Question>, p: Question -> bool): (r: seq<Question>)
    ensures forall q :: q in r <==> q in qs && p(q)
    ensures |r| <= |qs|
    ensures UniqueIds(qs) ==> UniqueIds(r)
  {
    if |qs| == 0 then []
    else
      var init := qs[..|qs| - 1];
      var last := qs[|qs| - 1];
      var r := Filter(init, p);
      assert forall q :: q in qs <==> q in init || q == last;
      assert UniqueIds(qs) ==> UniqueIds(init) && forall q :: q in init ==> q.qId != last.qId;
      if p(last) then r + [last] else r
  }

  /** Filtering a concatenation filters each part and keeps them in
      order; with `FilterOne` this pins the result down exactly: the kept
      elements, each once per occurrence, in their original order. */
  lemma {:induction false} FilterAppend(a: seq<Question>, b: seq<Question>, p: Question -> bool)
    ensures Filter(a + b, p) == Filter(a, p) + Filter(b, p)
  {
    if |b| == 0 {
      assert a + b == a;
    } else {
      var n := |b| - 1;
      assert (a + b)[..|a + b| - 1] == a + b[..n];
      assert (a + b)[|a + b| - 1] == b[n];
      FilterAppend(a, b[..n], p);
    }
  }

  /** A single element is kept exactly when it passes the test. */
  lemma FilterOne(q: Question, p: Question -> bool)
    ensures Filter([q], p) == if p(q) then [q] else []
  {
    assert [q][..0] == [];
  }

  /** Filtering with a test that fails at exactly one position drops one
      element. */
  lemma {:induction false} FilterDropsOne(qs: seq<Question>, p: Question -> bool, i: nat)
    requires i < |qs|
    requires !p(qs[i])
    requires forall j :: 0 <= j < |qs| && j != i ==> p(qs[j])
    ensures |Filter(qs, p)| == |qs| - 1
  {
    var n := |qs| - 1;
    var init := qs[..n];
    if i == n {
      FilterKeepsAll(init, p);
    } else {
      FilterDropsOne(init, p, i);
    }
  }

  lemma {:induction false} FilterKeepsAll(qs: seq<Question>, p: Question -> bool)
    requires forall j :: 0 <= j < |qs| ==> p(qs[j])
    ensures Filter(qs, p) == qs
  {
    if |qs| > 0 {
      var init := qs[..|qs| - 1];
      assert forall j :: 0 <= j < |init| ==> init[j] == qs[j];
      FilterKeepsAll(init, p);
      SnocSplit(qs);
    }
  }

  /** `String(q.type || "").toUpperCase()` is one of the three accepted
      spellings; unlike `safeUpper` it does not trim. */
  predicate KnownType(q: Question)
  {
    var t := Upper(q.qType);
    t == "TF" || t == "CARD" || t == "FLASHCARD"
  }

  /** Letter case does not matter to the type filter, surrounding spaces
      do, and other types are dropped. */
  lemma KnownTypeSpellings(q: Question)
    ensures KnownType(q.(qType := "tf")) && KnownType(q.(qType := "Card"))
    ensures KnownType(q.(qType := "flashCard"))
    ensures !KnownType(q.(qType := " TF")) && !KnownType(q.(qType := "MCQ"))
  {
    var u := Upper("tf");
    assert u[0] == 'T' && u[1] == 'F';
    assert u == "TF";
    u := Upper("Card");
    assert u[0] == 'C' && u[1] == 'A' && u[2] == 'R' && u[3] == 'D';
    assert u == "CARD";
    u := Upper("flashCard");
    assert u[0] == 'F' && u[1] == 'L' && u[2] == 'A' && u[3] == 'S' && u[4] == 'H';
    assert u[5] == 'C' && u[6] == 'A' && u[7] == 'R' && u[8] == 'D';
    assert u == "FLASHCARD";
    u := Upper(" TF");
    assert u[0] == ' ';
    u := Upper("MCQ");
    assert u[2] == 'Q';
  }

  /** The candidates: documents with a `q_id` and a known type, in catalog
      order. */
  function Candidates(docs: seq<Question>): (cs: seq<Question>)
    ensures forall q :: q in cs <==> q in docs && q.qId != "" && KnownType(q)
    ensures |cs| <= |docs|
    ensures UniqueIds(docs) ==> UniqueIds(cs)
  {
    var withId := Filter(docs, (q: Question) => q.qId != "");
    Filter(withId, KnownType)
  }

  /** At most one forced pick, drawn uniformly among the `force_repeat`
      candidates, and present whenever one exists. */
  function ForcedPick(cs: seq<Question>, u: real): (forced: seq<Question>)
    requires IsDraw(u)
    ensures |forced| <= 1
    ensures |forced| == 1 <==> exists i :: 0 <= i < |cs| && cs[i].forceRepeat
    ensures forall q :: q in forced ==> q in cs && q.forceRepeat
  {
    var forceList := Filter(cs, (q: Question) => q.forceRepeat);
    assert (exists i :: 0 <= i < |cs| && cs[i].forceRepeat) ==> |forceList| > 0 by {
      if i :| 0 <= i < |cs| && cs[i].forceRepeat {
        assert cs[i] in forceList;
      }
    }
    if |forceList| > 0 then
      var pick := forceList[RandIndex(u, |forceList|)];
      assert pick in forceList;
      assert pick in cs;
      [pick]
    else []
  }

  function IdsOf(qs: seq<Question>): (ids: set<string>)
    ensures forall id :: id in ids <==> exists q :: q in qs && q.qId == id
  {
    set q | q in qs :: q.qId
  }

  /** Every candidate whose id is not a forced id — familiarity, including
      `mastered`, plays no part. */
  function RemainingPool(cs: seq<Question>, forced: seq<Question>): (pool: seq<Question>)
    ensures forall q :: q in pool <==> q in cs && q.qId !in IdsOf(forced)
    ensures UniqueIds(cs) ==> UniqueIds(pool)
  {
    var forcedIds := IdsOf(forced);
    Filter(cs, (q: Question) => q.qId !in forcedIds)
  }

  /** With unique ids, removing a forced pick taken from the candidates
      leaves one fewer. */
  lemma RemainingPoolSize(cs: seq<Question>, forced: seq<Question>)
    requires UniqueIds(cs)
    requires |forced| <= 1
    requires forall q :: q in forced ==> q in cs
    ensures |RemainingPool(cs, forced)| == |cs| - |forced|
  {
    var forcedIds := IdsOf(forced);
    var p := (q: Question) => q.qId !in forcedIds;
    if |forced| == 0 {
      FilterKeepsAll(cs, p);
    } else {
      var f := forced[0];
      assert forced == [f];
      assert f in cs;
      var i :| 0 <= i < |cs| && cs[i] == f;
      FilterDropsOne(cs, p, i);
    }
  }

  /** `need = Math.max(0, 10 - forced.length)`. */
  function Need(forced: seq<Question>): (n: nat)
    ensures n <= RoundSize
    ensures n + |forced| >= RoundSize
    ensures |forced| <= RoundSize ==> n + |forced| == RoundSize
  {
    Max(0, RoundSize - |forced|)
  }

  /** The weight of every pool entry, each with its own jitter draw. */
  function RoundWeights(pool: seq<Question>, stats: map<string, Stat>, jitters: seq<real>): (ws: seq<real>)
    requires |jitters| >= |pool|
    requires AllDraws(jitters)
    ensures |ws| == |pool|
    ensures forall i :: 0 <= i < |pool| && Weight.WeightInputsOk(pool[i], Weight.Lookup(stats, pool[i].qId)) ==>
              ws[i] >= 1.0
  {
    seq(|pool|, i requires 0 <= i < |pool| =>
      Weight.CalcWeight(pool[i], Weight.Lookup(stats, pool[i].qId), jitters[i]))
  }

  /** Every random draw the loading effect makes, in order of use. */
  datatype Randomness = Randomness(forcePick: real, jitters: seq<real>, sample: seq<real>, shuffle: seq<real>)

  /** Enough draws for a catalog of `n` documents. */
  predicate Fits(rnd: Randomness, n: nat)
  {
    && IsDraw(rnd.forcePick)
    && |rnd.jitters| >= n && AllDraws(rnd.jitters)
    && |rnd.sample| >= RoundSize && AllDraws(rnd.sample)
    && |rnd.shuffle| >= RoundSize - 1 && AllDraws(rnd.shuffle)
  }

  /** `forced ++ weightedPicked`, before the shuffle. */
  function Combined(cs: seq<Question>, stats: map<string, Stat>, rnd: Randomness): (c: seq<Question>)
    requires Fits(rnd, |cs|)
    ensures |c| <= RoundSize
    ensures forall q :: q in c ==> q in cs
  {
    var forced := ForcedPick(cs, rnd.forcePick);
    var pool := RemainingPool(cs, forced);
    var ws := RoundWeights(pool, stats, rnd.jitters);
    var picked := Sampler.WeightedSampleNoReplace(pool, Need(forced), ws, rnd.sample);
    forced + picked
  }

  /** `shuffle([...forced, ...weightedPicked]).slice(0, 10)`. */
  function AssembleRound(cs: seq<Question>, stats: map<string, Stat>, rnd: Randomness): (round: seq<Question>)
    requires Fits(rnd, |cs|)
    ensures |round| <= RoundSize
    ensures forall q :: q in round ==> q in cs
  {
    ShuffleCut(Combined(cs, stats, rnd), rnd.shuffle)
  }

  /** `shuffle(c).slice(0, 10)`: the first ten of the shuffled copy, which
      is all of it when `c` has at most ten entries. */
  function ShuffleCut(c: seq<Question>, us: seq<real>): (round: seq<Question>)
    requires |us| >= |c| - 1 && AllDraws(us)
    ensures |round| == Min(RoundSize, |c|)
    ensures forall q :: q in round ==> q in c
    ensures |c| <= RoundSize ==> multiset(round) == multiset(c)
  {
    var shuffled := Shuffle.Shuffle(c, us);
    Shuffle.ShuffleSameElements(c, us);
    PrefixMembers(shuffled, Min(RoundSize, |shuffled|));
    assert shuffled[..|shuffled|] == shuffled;
    shuffled[..Min(RoundSize, |shuffled|)]
  }

  /** The whole loading step: catalog documents and statistics documents
      in, the round out. */
  function BuildRound(questionDocs: seq<Question>, statDocs: seq<Stat>, rnd: Randomness): (round: seq<Question>)
    requires Fits(rnd, |questionDocs|)
    ensures |round| <= RoundSize
    ensures forall q :: q in round ==> q in questionDocs && q.qId != "" && KnownType(q)
  {
    AssembleRound(Candidates(questionDocs), Weight.BuildStatsMap(statDocs), rnd)
  }

  /** The slice never drops anything: the round is the whole shuffled
      combination. */
  lemma RoundIsShuffledCombination(cs: seq<Question>, stats: map<string, Stat>, rnd: Randomness)
    requires Fits(rnd, |cs|)
    ensures multiset(AssembleRound(cs, stats, rnd)) == multiset(Combined(cs, stats, rnd))
  {
    assert |Combined(cs, stats, rnd)| <= RoundSize;
  }

  /** A forced pick exists exactly when a `force_repeat` candidate does,
      and it is always in the round. */
  lemma RoundKeepsForcedPick(cs: seq<Question>, stats: map<string, Stat>, rnd: Randomness)
    requires Fits(rnd, |cs|)
    ensures var forced := ForcedPick(cs, rnd.forcePick);
            forall f :: f in forced ==> f in AssembleRound(cs, stats, rnd)
  {
    RoundIsShuffledCombination(cs, stats, rnd);
    var forced := ForcedPick(cs, rnd.forcePick);
    var round := AssembleRound(cs, stats, rnd);
    forall f | f in forced
      ensures f in round
    {
      assert f in Combined(cs, stats, rnd);
      assert f in multiset(round);
    }
  }

  /** Distinct positions into a pool with unique ids pick unique ids. */
  lemma PicksHaveUniqueIds(pool: seq<Question>, ps: seq<nat>)
    requires forall t :: 0 <= t < |ps| ==> ps[t] < |pool|
    requires Distinct(ps)
    requires UniqueIds(pool)
    ensures UniqueIds(Sampler.PickAt(pool, ps))
  {
    var picked := Sampler.PickAt(pool, ps);
    forall a, b | 0 <= a < b < |picked|
      ensures picked[a].qId != picked[b].qId
    {
      assert ps[a] != ps[b];
    }
  }

  /** Before the shuffle: unique ids and `min(10, |candidates|)` entries. */
  lemma CombinedUniqueAndSized(cs: seq<Question>, stats: map<string, Stat>, rnd: Randomness)
    requires Fits(rnd, |cs|)
    requires UniqueIds(cs)
    ensures UniqueIds(Combined(cs, stats, rnd))
    ensures |Combined(cs, stats, rnd)| == Min(RoundSize, |cs|)
  {
    var forced := ForcedPick(cs, rnd.forcePick);
    var pool := RemainingPool(cs, forced);
    var ws := RoundWeights(pool, stats, rnd.jitters);
    var ps := Sampler.SamplePositions(ws, Need(forced), rnd.sample);
    var picked := Sampler.PickAt(pool, ps);
    assert picked == Sampler.WeightedSampleNoReplace(pool, Need(forced), ws, rnd.sample);
    RemainingPoolSize(cs, forced);
    PicksHaveUniqueIds(pool, ps);
    forall t | 0 <= t < |picked|
      ensures picked[t].qId !in IdsOf(forced)
    {
      assert picked[t] in pool;
    }
    JoinUnique(forced, picked);
  }

  /** A pick of at most one question followed by picks with other ids has
      unique ids. */
  lemma JoinUnique(forced: seq<Question>, picked: seq<Question>)
    requires |forced| <= 1
    requires UniqueIds(picked)
    requires forall t :: 0 <= t < |picked| ==> picked[t].qId !in IdsOf(forced)
    ensures UniqueIds(forced + picked)
  {
    var c := forced + picked;
    forall a, b | 0 <= a < b < |c|
      ensures c[a].qId != c[b].qId
    {
      if a < |forced| {
        assert c[a] in forced;
        assert c[b] == picked[b - |forced|];
      } else {
        assert c[a] == picked[a - |forced|] && c[b] == picked[b - |forced|];
      }
    }
  }

  /** With unique candidate ids the round has unique ids and exactly
      `min(10, |candidates|)` questions. */
  lemma RoundUniqueAndSized(cs: seq<Question>, stats: map<string, Stat>, rnd: Randomness)
    requires Fits(rnd, |cs|)
    requires UniqueIds(cs)
    ensures UniqueIds(AssembleRound(cs, stats, rnd))
    ensures |AssembleRound(cs, stats, rnd)| == Min(RoundSize, |cs|)
  {
    var combined := Combined(cs, stats, rnd);
    CombinedUniqueAndSized(cs, stats, rnd);
    RoundIsShuffledCombination(cs, stats, rnd);
    var round := AssembleRound(cs, stats, rnd);
    UniqueIdsDistinct(combined);
    DistinctByMultiset(combined, round);
    forall x | x in round
      ensures x in combined
    {
      assert x in multiset(round);
    }
    UniqueIdsByMembers(combined, round);
  }

  lemma CombinedHasAll(cs: seq<Question>, stats: map<string, Stat>, rnd: Randomness)
    requires Fits(rnd, |cs|)
    requires UniqueIds(cs)
    requires |cs| <= RoundSize
    ensures forall q :: q in cs ==> q in Combined(cs, stats, rnd)
  {
    var forced := ForcedPick(cs, rnd.forcePick);
    var pool := RemainingPool(cs, forced);
    var ws := RoundWeights(pool, stats, rnd.jitters);
    RemainingPoolSize(cs, forced);
    Sampler.SampleTakesAll(pool, Need(forced), ws, rnd.sample);
    var picked := Sampler.WeightedSampleNoReplace(pool, Need(forced), ws, rnd.sample);
    assert Combined(cs, stats, rnd) == forced + picked;
    JoinCovers(cs, forced, picked);
  }

  /** When every pooled question is picked, forced plus picked covers the
      candidates. */
  lemma JoinCovers(cs: seq<Question>, forced: seq<Question>, picked: seq<Question>)
    requires UniqueIds(cs)
    requires forall f :: f in forced ==> f in cs
    requires forall i :: 0 <= i < |RemainingPool(cs, forced)| ==> RemainingPool(cs, forced)[i] in picked
    ensures forall q :: q in cs ==> q in forced + picked
  {
    var pool := RemainingPool(cs, forced);
    forall q | q in cs
      ensures q in forced + picked
    {
      ForcedOrPooled(cs, forced, q);
      if q in pool {
        var i :| 0 <= i < |pool| && pool[i] == q;
      }
    }
  }

  /** With unique ids, a candidate is either the forced pick or in the
      remaining pool. */
  lemma ForcedOrPooled(cs: seq<Question>, forced: seq<Question>, q: Question)
    requires UniqueIds(cs)
    requires forall f :: f in forced ==> f in cs
    requires q in cs
    ensures q in forced || q in RemainingPool(cs, forced)
  {
    if q.qId in IdsOf(forced) {
      var f :| f in forced && f.qId == q.qId;
      ForcedIdIsForced(cs, f, q);
    }
  }

  lemma ForcedIdIsForced(cs: seq<Question>, f: Question, q: Question)
    requires UniqueIds(cs)
    requires f in cs && q in cs && f.qId == q.qId
    ensures f == q
  {
    var i :| 0 <= i < |cs| && cs[i] == q;
    var j :| 0 <= j < |cs| && cs[j] == f;
  }

  /** A candidate set of at most ten comes back whole: every candidate is
      in the round. */
  lemma SmallCatalogRoundIsComplete(cs: seq<Question>, stats: map<string, Stat>, rnd: Randomness)
    requires Fits(rnd, |cs|)
    requires UniqueIds(cs)
    requires |cs| <= RoundSize
    ensures forall q :: q in cs ==> q in AssembleRound(cs, stats, rnd)
  {
    CombinedHasAll(cs, stats, rnd);
    RoundIsShuffledCombination(cs, stats, rnd);
    var round := AssembleRound(cs, stats, rnd);
    var combined := Combined(cs, stats, rnd);
    forall q | q in cs
      ensures q in round
    {
      assert q in multiset(combined);
    }
  }

  lemma TwoForceRepeatMembers(round: seq<Question>, x: Question, y: Question)
    requires x in round && y in round && x != y
    requires x.forceRepeat && y.forceRepeat
    ensures exists a, b :: 0 <= a < b < |round| && round[a].forceRepeat && round[b].forceRepeat
  {
    var a :| 0 <= a < |round| && round[a] == x;
    var b :| 0 <= b < |round| && round[b] == y;
    if a < b {
      assert round[a].forceRepeat && round[b].forceRepeat;
    } else {
      assert round[b].forceRepeat && round[a].forceRepeat;
    }
  }

  /** Only the forced pick is unique: two `force_repeat` candidates in a
      small catalog both end up in the round. */
  lemma SeveralForceRepeatInRound(cs: seq<Question>, stats: map<string, Stat>, rnd: Randomness, i: nat, j: nat)
    requires Fits(rnd, |cs|)
    requires UniqueIds(cs)
    requires |cs| <= RoundSize
    requires i < j < |cs| && cs[i].forceRepeat && cs[j].forceRepeat
    ensures var round := AssembleRound(cs, stats, rnd);
            exists a, b :: 0 <= a < b < |round| && round[a].forceRepeat && round[b].forceRepeat
  {
    SmallCatalogRoundIsComplete(cs, stats, rnd);
    var round := AssembleRound(cs, stats, rnd);
    assert cs[i] in cs && cs[j] in cs;
    assert cs[i].qId != cs[j].qId;
    TwoForceRepeatMembers(round, cs[i], cs[j]);
  }
}

=== FILE: sampler.dfy ===
/** `weightedSampleNoReplace` (page.js:170-195). Each item's weight is
    computed once, clamped at zero, and then `k` times: if the remaining
    weights sum to zero or less an index is drawn uniformly, otherwise a
    cumulative walk over the weights finds the drawn item; the chosen entry
    is spliced out of the pool. The pool is kept as the items' positions in
    the input, so that "no position is picked twice" can be stated. */
module Sampler {
  import opened Common

  /** `Math.max(0, Number(w) || 0)`. */
  function Clamp(w: real): (c: real)
    ensures c >= 0.0
    ensures w >= 0.0 ==> c == w
    ensures w <= 0.0 ==> c == 0.0
  {
    if w > 0.0 then w else 0.0
  }

  function Clamped(ws: seq<real>): (cs: seq<real>)
    ensures |cs| == |ws|
    ensures forall i :: 0 <= i < |ws| ==> cs[i] == Clamp(ws[i])
  {
    seq(|ws|, i requires 0 <= i < |ws| => Clamp(ws[i]))
  }

  predicate NonNeg(ws: seq<real>)
  {
    forall i :: 0 <= i < |ws| ==> ws[i] >= 0.0
  }

  /** The `reduce` that totals the pool's weights. */
  function Sum(ws: seq<real>): real
  {
    if |ws| == 0 then 0.0 else Sum(ws[..|ws| - 1]) + ws[|ws| - 1]
  }

  /** Non-negative weights have a non-negative total, which is zero only
      when every weight is zero: the `total <= 0` test is "all weights 0". */
  lemma {:induction false} SumNonNeg(ws: seq<real>)
    requires NonNeg(ws)
    ensures Sum(ws) >= 0.0
    ensures Sum(ws) == 0.0 <==> forall i :: 0 <= i < |ws| ==> ws[i] == 0.0
  {
    if |ws| > 0 {
      var init := ws[..|ws| - 1];
      SumNonNeg(init);
      if Sum(ws) == 0.0 {
        forall i | 0 <= i < |ws|
          ensures ws[i] == 0.0
        {
          if i < |ws| - 1 {
            assert ws[i] == init[i];
          }
        }
      }
    }
  }

  /** The inner `for` loop: subtract weights from `r` until it is `<= 0`.
      Falling off the end is reported as `|ws|`. */
  function Walk(ws: seq<real>, r: real, i: nat): (j: nat)
    requires i <= |ws|
    ensures i <= j <= |ws|
    decreases |ws| - i
  {
    if i == |ws| then |ws|
    else if r - ws[i] <= 0.0 then i
    else Walk(ws, r - ws[i], i + 1)
  }

  /** The prefix sum through position `m` inclusive. */
  function Reach(ws: seq<real>, m: nat): real
    requires m < |ws|
  {
    Sum(ws[..m + 1])
  }

  /** Inverse-CDF selection: `j` is the first index whose prefix sum
      reaches `r`. */
  ghost predicate FirstReaching(ws: seq<real>, r: real, j: int)
  {
    && 0 <= j < |ws|
    && r <= Reach(ws, j)
    && forall m :: 0 <= m < j ==> Reach(ws, m) < r
  }

  lemma PrefixSumStep(ws: seq<real>, i: nat)
    requires i < |ws|
    ensures Reach(ws, i) == Sum(ws[..i]) + ws[i]
  {
    assert ws[..i + 1][..i] == ws[..i];
  }

  /** Having walked past positions `0..i-1`, the walk stops exactly at the
      first index whose prefix sum reaches the draw, or falls off the end
      exactly when no prefix does. */
  lemma {:induction false} WalkFindsFirstReaching(ws: seq<real>, r: real, i: nat)
    requires i <= |ws|
    requires forall m :: 0 <= m < i ==> Reach(ws, m) < r
    ensures Walk(ws, r - Sum(ws[..i]), i) < |ws| ==>
              FirstReaching(ws, r, Walk(ws, r - Sum(ws[..i]), i))
    ensures Walk(ws, r - Sum(ws[..i]), i) == |ws| ==>
              forall m :: 0 <= m < |ws| ==> Reach(ws, m) < r
    decreases |ws| - i
  {
    if i < |ws| {
      PrefixSumStep(ws, i);
      var rest := r - Sum(ws[..i]);
      if rest - ws[i] > 0.0 {
        assert rest - ws[i] == r - Sum(ws[..i + 1]);
        WalkFindsFirstReaching(ws, r, i + 1);
      }
    }
  }

  /** With a draw below a positive total the walk always lands on an item,
      so the `chosenIndex = 0` default is never used. */
  lemma WalkLands(ws: seq<real>, r: real)
    requires 0.0 <= r < Sum(ws)
    ensures Walk(ws, r, 0) < |ws|
    ensures FirstReaching(ws, r, Walk(ws, r, 0))
  {
    assert |ws| > 0;
    assert ws[..|ws|] == ws;
    assert Reach(ws, |ws| - 1) == Sum(ws);
    assert ws[..0] == [];
    WalkFindsFirstReaching(ws, r, 0);
  }

  lemma ScaledDrawBelowTotal(u: real, total: real)
    requires IsDraw(u)
    requires total > 0.0
    ensures 0.0 <= u * total < total
    ensures u > 0.0 ==> u * total > 0.0
  {
    assert (1.0 - u) * total > 0.0;
  }

  /** The weighted branch of one iteration: a draw `r` in `[0, total)`
      lands on the first index reaching it, which carries positive weight
      unless the draw is exactly zero. */
  lemma WeightedBranch(ws: seq<real>, r: real)
    requires 0.0 <= r < Sum(ws)
    ensures Walk(ws, r, 0) < |ws|
    ensures FirstReaching(ws, r, Walk(ws, r, 0))
    ensures r > 0.0 ==> ws[Walk(ws, r, 0)] > 0.0
  {
    WalkLands(ws, r);
    PositiveDrawHitsPositiveWeight(ws, r, Walk(ws, r, 0));
  }

  /** One iteration's choice among the remaining weights `ws`. */
  function ChooseIndex(ws: seq<real>, u: real): (j: nat)
    requires |ws| > 0
    requires NonNeg(ws)
    requires IsDraw(u)
    ensures j < |ws|
    ensures Sum(ws) <= 0.0 ==> j == RandIndex(u, |ws|)
    ensures Sum(ws) > 0.0 ==> FirstReaching(ws, u * Sum(ws), j)
    ensures Sum(ws) > 0.0 && u > 0.0 ==> ws[j] > 0.0
  {
    var total := Sum(ws);
    if total <= 0.0 then RandIndex(u, |ws|)
    else
      var r := u * total;
      ScaledDrawBelowTotal(u, total);
      WeightedBranch(ws, r);
      Walk(ws, r, 0)
  }

  /** A strictly positive draw never lands on a zero-weight item. */
  lemma PositiveDrawHitsPositiveWeight(ws: seq<real>, r: real, j: int)
    requires FirstReaching(ws, r, j)
    ensures r > 0.0 ==> ws[j] > 0.0
  {
    PrefixSumStep(ws, j);
    if j > 0 {
      assert Reach(ws, j - 1) < r;
      PrefixSumStep(ws, j - 1);
      assert ws[..j] == ws[..(j - 1) + 1];
    } else {
      assert ws[..0] == [];
    }
  }

  /** The weights of the pool entries, looked up by input position. */
  function PoolWeights(cw: seq<real>, pool: seq<nat>): (ws: seq<real>)
    requires forall t :: 0 <= t < |pool| ==> pool[t] < |cw|
    ensures |ws| == |pool|
    ensures forall t :: 0 <= t < |pool| ==> ws[t] == cw[pool[t]]
  {
    seq(|pool|, t requires 0 <= t < |pool| => cw[pool[t]])
  }

  /** `pool.splice(i, 1)`: the elements before `i` stay where they are and
      the ones after it move down by one. */
  function RemoveAt<T>(s: seq<T>, i: nat): (r: seq<T>)
    requires i < |s|
    ensures |r| == |s| - 1
    ensures forall t :: 0 <= t < |r| ==> r[t] == if t < i then s[t] else s[t + 1]
    ensures multiset(r) + multiset{s[i]} == multiset(s)
    ensures forall x :: x in r ==> x in s
  {
    assert s == s[..i] + [s[i]] + s[i + 1..];
    s[..i] + s[i + 1..]
  }

  /** The outer loop: `k` draws (or fewer, if the pool runs dry) from the
      pool, whose weights `cw` were fixed before the first draw. */
  function Draws(cw: seq<real>, pool: seq<nat>, k: nat, us: seq<real>): (picked: seq<nat>)
    requires NonNeg(cw)
    requires forall t :: 0 <= t < |pool| ==> pool[t] < |cw|
    requires Distinct(pool)
    requires |us| >= Min(k, |pool|)
    requires AllDraws(us)
    ensures |picked| == Min(k, |pool|)
    ensures forall t :: 0 <= t < |picked| ==> picked[t] in pool
    ensures Distinct(picked)
    decreases k
  {
    if k == 0 || |pool| == 0 then []
    else
      var i := ChooseIndex(PoolWeights(cw, pool), us[0]);
      var rest := RemoveAt(pool, i);
      RemoveKeepsDistinct(pool, i);
      assert forall t :: 0 <= t < |rest| ==> rest[t] in pool;
      assert AllDraws(us[1..]);
      var tail := Draws(cw, rest, k - 1, us[1..]);
      PrependPick(pool, i, tail);
      [pool[i]] + tail
  }

  /** The chosen entry followed by distinct draws from what is left: all
      from the pool, none twice. */
  lemma PrependPick<T>(pool: seq<T>, i: nat, tail: seq<T>)
    requires i < |pool| && Distinct(pool)
    requires Distinct(tail)
    requires forall t :: 0 <= t < |tail| ==> tail[t] in RemoveAt(pool, i)
    ensures Distinct([pool[i]] + tail)
    ensures forall t :: 0 <= t < |tail| + 1 ==> ([pool[i]] + tail)[t] in pool
  {
    RemoveKeepsDistinct(pool, i);
    PrependFresh(pool[i], RemoveAt(pool, i), tail);
    forall t | 0 <= t < |tail| + 1
      ensures ([pool[i]] + tail)[t] in pool
    {
      if t > 0 {
        assert ([pool[i]] + tail)[t] == tail[t - 1];
      }
    }
  }

  /** Putting an element that is not in `rest` before distinct elements
      of `rest` keeps them distinct. */
  lemma PrependFresh<T>(x: T, rest: seq<T>, tail: seq<T>)
    requires Distinct(tail)
    requires forall t :: 0 <= t < |tail| ==> tail[t] in rest
    requires x !in rest
    ensures Distinct([x] + tail)
  {
    var c := [x] + tail;
    forall a, b | 0 <= a < b < |c|
      ensures c[a] != c[b]
    {
      assert c[b] == tail[b - 1];
      if a > 0 {
        assert c[a] == tail[a - 1];
      }
    }
  }

  lemma RemoveKeepsDistinct<T>(s: seq<T>, i: nat)
    requires i < |s|
    requires Distinct(s)
    ensures Distinct(RemoveAt(s, i))
    ensures s[i] !in RemoveAt(s, i)
  {
    var r := RemoveAt(s, i);
    forall a, b | 0 <= a < b < |r|
      ensures r[a] != r[b]
    {
      var a' := if a < i then a else a + 1;
      var b' := if b < i then b else b + 1;
      assert r[a] == s[a'] && r[b] == s[b'];
    }
    forall t | 0 <= t < |r|
      ensures r[t] != s[i]
    {
      var t' := if t < i then t else t + 1;
      assert r[t] == s[t'];
    }
  }

  function Range(n: nat): (r: seq<nat>)
    ensures |r| == n
    ensures forall i :: 0 <= i < n ==> r[i] == i
    ensures Distinct(r)
  {
    seq(n, i requires 0 <= i < n => i)
  }

  /** The positions (into the input) that the sampler picks, in order. At
      most `k`, exactly `min(k, n)`, never the same position twice — also
      when every clamped weight is zero. */
  function SamplePositions(weights: seq<real>, k: nat, us: seq<real>): (ps: seq<nat>)
    requires |us| >= Min(k, |weights|)
    requires AllDraws(us)
    ensures |ps| == Min(k, |weights|)
    ensures forall t :: 0 <= t < |ps| ==> ps[t] < |weights|
    ensures Distinct(ps)
  {
    var cw := Clamped(weights);
    var pool := Range(|weights|);
    var ps := Draws(cw, pool, k, us);
    assert forall t :: 0 <= t < |ps| ==> ps[t] in pool;
    ps
  }

  /** `weightedSampleNoReplace(items, k, getWeight)` with `weights[i]` the
      value `getWeight(items[i])` returned and `us` the successive draws. */
  function WeightedSampleNoReplace<T>(items: seq<T>, k: nat, weights: seq<real>, us: seq<real>): (picked: seq<T>)
    requires |weights| == |items|
    requires |us| >= Min(k, |items|)
    requires AllDraws(us)
    ensures |picked| == Min(k, |items|)
    ensures forall t :: 0 <= t < |picked| ==> picked[t] in items
    ensures Distinct(items) ==> Distinct(picked)
  {
    var ps := SamplePositions(weights, k, us);
    PickAt(items, ps)
  }

  /** The items at the given positions; distinct positions of distinct
      items give distinct items. */
  function PickAt<T>(items: seq<T>, ps: seq<nat>): (picked: seq<T>)
    requires forall t :: 0 <= t < |ps| ==> ps[t] < |items|
    requires Distinct(ps)
    ensures |picked| == |ps|
    ensures forall t :: 0 <= t < |ps| ==> picked[t] == items[ps[t]]
    ensures Distinct(items) ==> Distinct(picked)
  {
    var picked := seq(|ps|, t requires 0 <= t < |ps| => items[ps[t]]);
    assert Distinct(items) ==> forall a, b :: 0 <= a < b < |picked| ==> ps[a] != ps[b] && picked[a] != picked[b];
    picked
  }

  /** The first pick is the inverse-CDF choice over all clamped weights
      when they total more than zero. */
  lemma FirstPickIsInverseCdf(weights: seq<real>, k: nat, us: seq<real>)
    requires k > 0 && |weights| > 0
    requires |us| >= Min(k, |weights|)
    requires AllDraws(us)
    requires Sum(Clamped(weights)) > 0.0
    ensures FirstReaching(Clamped(weights), us[0] * Sum(Clamped(weights)),
                          SamplePositions(weights, k, us)[0])
  {
    FirstPosition(weights, k, us);
  }

  /** The first position sampled is the one `ChooseIndex` picks over all
      clamped weights. */
  lemma FirstPosition(weights: seq<real>, k: nat, us: seq<real>)
    requires k > 0 && |weights| > 0
    requires |us| >= Min(k, |weights|)
    requires AllDraws(us)
    ensures SamplePositions(weights, k, us)[0] == ChooseIndex(Clamped(weights), us[0])
  {
    var cw := Clamped(weights);
    var pool := Range(|weights|);
    assert PoolWeights(cw, pool) == cw;
    var i := ChooseIndex(cw, us[0]);
    assert SamplePositions(weights, k, us) == Draws(cw, pool, k, us);
    DrawsHead(cw, pool, k, us);
    assert Draws(cw, pool, k, us)[0] == pool[i] == i;
  }

  /** The first draw is the pool entry that `ChooseIndex` selects. */
  lemma DrawsHead(cw: seq<real>, pool: seq<nat>, k: nat, us: seq<real>)
    requires NonNeg(cw)
    requires forall t :: 0 <= t < |pool| ==> pool[t] < |cw|
    requires Distinct(pool)
    requires |us| >= Min(k, |pool|)
    requires AllDraws(us)
    requires k > 0 && |pool| > 0
    ensures Draws(cw, pool, k, us)[0] == pool[ChooseIndex(PoolWeights(cw, pool), us[0])]
  {
  }

  /** The positions below `n`. */
  function Below(n: nat): (b: set<nat>)
    ensures forall i: nat :: i in b <==> i < n
    ensures |b| == n
  {
    if n == 0 then {} else
      var b := Below(n - 1);
      assert n - 1 !in b;
      b + {n - 1}
  }

  function Elems(ps: seq<nat>): (e: set<nat>)
    ensures forall x :: x in e <==> x in ps
    ensures Distinct(ps) ==> |e| == |ps|
  {
    if |ps| == 0 then {} else
      var init := ps[..|ps| - 1];
      var e := Elems(init);
      assert forall x :: x in ps <==> x in init || x == ps[|ps| - 1];
      assert Distinct(ps) ==> Distinct(init) && ps[|ps| - 1] !in init;
      e + {ps[|ps| - 1]}
  }

  lemma {:induction false} SubsetSize(a: set<nat>, b: set<nat>)
    requires a <= b
    ensures |a| <= |b|
    decreases b
  {
    if a != {} {
      var x :| x in a;
      SubsetSize(a - {x}, b - {x});
    }
  }

  /** Pigeonhole: `n` distinct positions below `n` are all of them. */
  lemma DistinctCoversRange(ps: seq<nat>, n: nat)
    requires |ps| == n
    requires Distinct(ps)
    requires forall t :: 0 <= t < |ps| ==> ps[t] < n
    ensures forall i :: 0 <= i < n ==> i in ps
  {
    var a := Elems(ps);
    var b := Below(n);
    forall i | 0 <= i < n
      ensures i in ps
    {
      if i !in a {
        assert a <= b - {i};
        SubsetSize(a, b - {i});
        assert false;
      }
    }
  }

  /** When `k` covers the whole input every item is picked: a pool smaller
      than the request comes back complete, in drawn order. */
  lemma SampleTakesAll<T>(items: seq<T>, k: nat, weights: seq<real>, us: seq<real>)
    requires |weights| == |items|
    requires k >= |items|
    requires |us| >= Min(k, |items|)
    requires AllDraws(us)
    ensures forall i :: 0 <= i < |items| ==> items[i] in WeightedSampleNoReplace(items, k, weights, us)
  {
    var ps := SamplePositions(weights, k, us);
    assert |ps| == |items|;
    DistinctCoversRange(ps, |items|);
    var picked := PickAt(items, ps);
    assert WeightedSampleNoReplace(items, k, weights, us) == picked;
    forall i | 0 <= i < |items|
      ensures items[i] in picked
    {
      assert i in ps;
      var t :| 0 <= t < |ps| && ps[t] == i;
      assert picked[t] == items[i];
    }
  }
}

=== FILE: session.dfy ===
/** The per-question state machine of the practice page: `onTFPick` and
    `onCardReveal` (page.js:348-403) in phase `answer`, `handleFamiliarity`
    (page.js:406-480) in phase `feedback`, and `goNext` (page.js:482-509),
    which either re-enters `answer` on the next question or ends the round
    in `summary`. The clock is passed in; store writes are returned as
    values. */
module Session {
  import opened Common
  import opened Domain
  import opened Text
  import opened Summary

  datatype Phase = Answer | Feedback | Summary

  /** The page's state for one round. `userId`/`sessionId` are `""` until
      known. */
  datatype State = State(
    questions: seq<Question>,
    idx: nat,
    phase: Phase,
    records: seq<Rec>,
    pending: Option<Rec>,
    cardRevealed: bool,
    shownAt: Option<int>,
    firstActionAt: Option<int>,
    userId: string,
    subject: string,
    sessionId: string)

  /** One day in milliseconds, the `needs_practice` horizon. */
  const DayMs: int := 24 * 60 * 60 * 1000

  /** `questions[idx]`, `undefined` past the end. */
  function CurrentQ(s: State): (q: Option<Question>)
    ensures q.Some? <==> s.idx < |s.questions|
  {
    if s.idx < |s.questions| then Some(s.questions[s.idx]) else None
  }

  /** `resetPerQuestionUI`: fresh timing and UI for the shown question. */
  function ResetPerQuestion(s: State, now: int): (s': State)
    ensures s'.phase == Answer && s'.pending.None? && s'.shownAt == Some(now)
    ensures s'.firstActionAt.None? && !s'.cardRevealed
    ensures s'.questions == s.questions && s'.idx == s.idx && s'.records == s.records
  {
    s.(shownAt := Some(now), firstActionAt := None, pending := None, cardRevealed := false, phase := Answer)
  }

  /** The end of the loading effect: the round installed at index 0 with no
      records, and the first question shown at `now`. */
  function Start(round: seq<Question>, userId: string, subject: string, sessionId: string, now: int): (s: State)
    ensures s.questions == round && s.idx == 0 && s.records == [] && s.phase == Answer
    ensures Inv(s)
  {
    var s0 := State(round, 0, Answer, [], None, false, None, None, userId, subject, sessionId);
    ResetPerQuestion(s0, now)
  }

  /** A timestamp slot's value, or `now` when it is empty or `0` (the
      source tests the slot for truthiness). */
  function OrNow(t: Option<int>, now: int): (v: int)
    ensures t.Some? && t.value != 0 ==> v == t.value
    ensures t.None? || t.value == 0 ==> v == now
  {
    if t.Some? && t.value != 0 then t.value else now
  }

  /** `Math.max(0, first - shown)`, each defaulting to `now`: the reading
      time, never negative, and exact when both stamps are set in order. */
  function ReadMs(first: Option<int>, shown: Option<int>, now: int): (ms: int)
    ensures ms >= 0
    ensures ms == 0 <==> OrNow(first, now) <= OrNow(shown, now)
    ensures ms > 0 ==> ms == OrNow(first, now) - OrNow(shown, now)
  {
    Max(0, OrNow(first, now) - OrNow(shown, now))
  }

  /** The record of a TF pick `val` on `q`: right exactly when the pick
      agrees with whether the trimmed key spells "true" in any case. */
  function TfRecord(q: Question, val: bool, readMs: int): (r: Rec)
    ensures r.qId == q.qId && r.coreTopic == q.coreTopic && r.recType == TF
    ensures r.readMs == readMs && r.answerMs == 0
    ensures r.userAnswer == (if val then "TRUE" else "FALSE")
    ensures r.isCorrect <==> (val <==> SpellsTrue(SafeStr(q.answerKey)))
  {
    SafeUpperTrueIff(q.answerKey);
    Rec(q.qId, q.coreTopic, readMs, 0, val == (SafeUpper(q.answerKey) == "TRUE"),
        q.answerKey, q.explanation, if val then "TRUE" else "FALSE", TF)
  }

  /** The record of revealing card `q`: self-assessed, so always correct,
      with the trimmed key. */
  function CardRecord(q: Question, readMs: int): (r: Rec)
    ensures r.qId == q.qId && r.coreTopic == q.coreTopic && r.recType == CARD
    ensures r.isCorrect && r.userAnswer == "REVEALED"
    ensures r.readMs == readMs && r.answerMs == 0
    ensures r.answerKey == [] || (!IsSpace(r.answerKey[0]) && !IsSpace(r.answerKey[|r.answerKey| - 1]))
  {
    Rec(q.qId, q.coreTopic, readMs, 0, true, SafeStr(q.answerKey), q.explanation, "REVEALED", CARD)
  }

  /** `onTFPick(val)` at time `now`. */
  function OnTFPick(s: State, val: bool, now: int): (s': State)
    ensures CurrentQ(s).None? || s.phase != Answer ==> s' == s
    ensures CurrentQ(s).Some? && s.phase == Answer ==>
              && s'.phase == Feedback
              && |s'.records| == |s.records| + 1 && s'.records[..|s.records|] == s.records
              && s'.pending == Some(s'.records[|s.records|])
              && s'.records[|s.records|].recType == TF
              && s'.records[|s.records|].qId == s.questions[s.idx].qId
              && s'.records[|s.records|].readMs >= 0
              && s'.records[|s.records|].answerMs == 0
              && (s'.records[|s.records|].isCorrect
                  <==> (val <==> SafeUpper(s.questions[s.idx].answerKey) == "TRUE"))
              && s'.questions == s.questions && s'.idx == s.idx
  {
    if CurrentQ(s).None? || s.phase != Answer then s
    else
      var first := OrNow(s.firstActionAt, now);
      var rec := TfRecord(s.questions[s.idx], val, ReadMs(Some(first), s.shownAt, now));
      assert (s.records + [rec])[..|s.records|] == s.records;
      s.(firstActionAt := Some(first), pending := Some(rec), records := s.records + [rec], phase := Feedback)
  }

  /** Of the two possible TF picks exactly one is marked correct, and it is
      the one the answer key names (`TRUE`, or anything else as `FALSE`). */
  lemma ExactlyOnePickCorrect(s: State, now: int)
    requires Inv(s) && s.phase == Answer && s.idx < |s.questions|
    ensures var n := |s.records|;
            OnTFPick(s, true, now).records[n].isCorrect != OnTFPick(s, false, now).records[n].isCorrect
    ensures var n := |s.records|;
            OnTFPick(s, true, now).records[n].isCorrect <==> SafeUpper(s.questions[s.idx].answerKey) == "TRUE"
    ensures var n := |s.records|;
            OnTFPick(s, true, now).records[n].isCorrect <==> SpellsTrue(SafeStr(s.questions[s.idx].answerKey))
  {
    SafeUpperTrueIff(s.questions[s.idx].answerKey);
  }

  /** `onCardReveal()` at time `now`. */
  function OnCardReveal(s: State, now: int): (s': State)
    ensures CurrentQ(s).None? || s.phase != Answer ==> s' == s
    ensures CurrentQ(s).Some? && s.phase == Answer ==>
              && s'.phase == Feedback && s'.cardRevealed
              && |s'.records| == |s.records| + 1 && s'.records[..|s.records|] == s.records
              && s'.pending == Some(s'.records[|s.records|])
              && s'.records[|s.records|].recType == CARD
              && s'.records[|s.records|].isCorrect
              && s'.records[|s.records|].qId == s.questions[s.idx].qId
              && s'.records[|s.records|].readMs >= 0
              && s'.records[|s.records|].answerMs == 0
              && s'.questions == s.questions && s'.idx == s.idx
  {
    if CurrentQ(s).None? || s.phase != Answer then s
    else
      var first := OrNow(s.firstActionAt, now);
      var rec := CardRecord(s.questions[s.idx], ReadMs(Some(first), s.shownAt, now));
      assert (s.records + [rec])[..|s.records|] == s.records;
      s.(firstActionAt := Some(first), cardRevealed := true, pending := Some(rec),
         records := s.records + [rec], phase := Feedback)
  }

  /** `safeUpper(currentQ.type) === "TF"`: the test that picks the TF
      buttons, the record type and the wrong-answer count. */
  predicate IsTF(q: Question)
  {
    SafeUpper(q.qType) == "TF"
  }

  /** The two letters of "tf", each in either case. */
  predicate SpellsTF(t: string)
  {
    |t| == 2 && (t[0] == 't' || t[0] == 'T') && (t[1] == 'f' || t[1] == 'F')
  }

  /** A question is TF exactly when its trimmed type spells "tf" in any
      case; `CARD`, `FLASHCARD` and anything else count as cards. */
  lemma IsTFIff(q: Question)
    ensures IsTF(q) <==> SpellsTF(SafeStr(q.qType))
  {
    var t := Trim(q.qType);
    var u := Upper(t);
    if |t| == 2 {
      UpperCharIs(t[0], 'T');
      UpperCharIs(t[1], 'F');
      if SpellsTF(t) {
        assert u == "TF";
      }
    }
  }

  /** The `answers` document written for the pending record. */
  datatype AnswerDoc = AnswerDoc(
    sessionId: string,
    userId: string,
    subject: string,
    qId: string,
    qType: RecType,
    coreTopic: string,
    userAnswer: string,
    isCorrect: bool,
    choice: Familiarity,
    timeMs: int,
    readMs: int,
    answerMs: int)

  function AnswerFor(s: State, q: Question, rec: Rec, choice: Familiarity): (a: AnswerDoc)
    ensures a.timeMs == a.readMs + a.answerMs
    ensures a.readMs == rec.readMs && a.answerMs == rec.answerMs
    ensures a.qId == q.qId && a.isCorrect == rec.isCorrect && a.choice == choice
    ensures a.userAnswer == rec.userAnswer && a.coreTopic == q.coreTopic
    ensures a.sessionId == s.sessionId && a.userId == s.userId && a.subject == s.subject
    ensures a.qType == TF <==> IsTF(q)
  {
    AnswerDoc(s.sessionId, s.userId, s.subject, q.qId, if IsTF(q) then TF else CARD, q.coreTopic,
              rec.userAnswer, rec.isCorrect, choice, rec.readMs + rec.answerMs, rec.readMs, rec.answerMs)
  }

  /** The new statistics document, from the previous one (if any) alone:
      one more attempt; one more wrong only for an incorrect TF answer; the
      chosen familiarity; a 24-hour horizon only for `needs_practice`. */
  function UpdateStat(prev: Option<Stat>, userId: string, subject: string, q: Question,
                      rec: Rec, choice: Familiarity, now: int): (s: Stat)
    ensures s.attempts == (if prev.Some? then prev.value.attempts else 0) + 1
    ensures s.wrong == (if prev.Some? then prev.value.wrong else 0)
                       + (if IsTF(q) && !rec.isCorrect then 1 else 0)
    ensures s.familiarity == choice
    ensures s.needsPracticeUntil.Some? <==> choice == NeedsPractice
    ensures s.needsPracticeUntil.Some? ==> s.needsPracticeUntil.value == now + DayMs
    ensures s.lastResult == NotApplicable <==> !IsTF(q)
    ensures IsTF(q) ==> (s.lastResult == Correct <==> rec.isCorrect)
    ensures s.qId == q.qId && s.userId == userId
    ensures s.subject == subject && s.coreTopic == q.coreTopic
  {
    var prevAttempts := if prev.Some? then prev.value.attempts else 0;
    var prevWrong := if prev.Some? then prev.value.wrong else 0;
    var isTF := IsTF(q);
    var addWrong := if isTF && !rec.isCorrect then 1 else 0;
    var needsUntil := if choice == NeedsPractice then Some(now + DayMs) else None;
    var lastResult := if isTF then (if rec.isCorrect then Correct else Wrong) else NotApplicable;
    Stat(userId, q.qId, subject, q.coreTopic, prevAttempts + 1, prevWrong + addWrong,
         lastResult, choice, needsUntil)
  }

  /** The `0 <= wrong <= attempts` invariant survives every update, and a
      first update starts from it. */
  lemma UpdateKeepsCounts(prev: Option<Stat>, userId: string, subject: string, q: Question,
                          rec: Rec, choice: Familiarity, now: int)
    requires prev.Some? ==> CountsOk(prev.value)
    ensures CountsOk(UpdateStat(prev, userId, subject, q, rec, choice, now))
  {
  }

  /** A CARD answer never adds a wrong, and a missing document updates as
      one with zero counts. */
  lemma CardNeverWrong(prev: Stat, userId: string, subject: string, q: Question,
                       rec: Rec, choice: Familiarity, now: int)
    ensures !IsTF(q) ==> UpdateStat(Some(prev), userId, subject, q, rec, choice, now).wrong == prev.wrong
    ensures UpdateStat(None, userId, subject, q, rec, choice, now)
         == UpdateStat(Some(prev.(attempts := 0, wrong := 0)), userId, subject, q, rec, choice, now)
  {
    MissingStatIsZero(prev, userId, subject, q, rec, choice, now);
  }

  /** A missing statistics document updates as one with zero counts. */
  lemma MissingStatIsZero(prev: Stat, userId: string, subject: string, q: Question,
                          rec: Rec, choice: Familiarity, now: int)
    ensures UpdateStat(None, userId, subject, q, rec, choice, now)
         == UpdateStat(Some(prev.(attempts := 0, wrong := 0)), userId, subject, q, rec, choice, now)
  {
    var zero := prev.(attempts := 0, wrong := 0);
    assert zero.attempts == 0 && zero.wrong == 0;
  }

  /** `goNext()`: end the round after the last question, otherwise show the
      next one at `now`. The session fields to merge come back when the
      round ends. */
  function GoNext(s: State, now: int): (r: (State, Option<SessionFinal>))
    ensures r.1.Some? <==> s.idx + 1 >= |s.questions|
    ensures s.idx + 1 >= |s.questions| ==> r.0 == s.(phase := Summary) && r.1 == Some(Finalize(s.records))
    ensures s.idx + 1 < |s.questions| ==>
              r.0.phase == Answer && r.0.idx == s.idx + 1 && r.0.records == s.records
              && r.0.pending.None? && r.0.shownAt == Some(now)
  {
    (NextState(s, now), if s.idx + 1 >= |s.questions| then Some(Finalize(s.records)) else None)
  }

  /** The page state after `goNext()`: `summary` after the last question,
      otherwise the next question freshly shown at `now`. */
  function NextState(s: State, now: int): (s': State)
    ensures s.idx + 1 >= |s.questions| ==> s' == s.(phase := Summary)
    ensures s.idx + 1 < |s.questions| ==>
              && s'.phase == Answer && s'.idx == s.idx + 1
              && s'.records == s.records && s'.questions == s.questions
              && s'.pending.None? && !s'.cardRevealed
              && s'.shownAt == Some(now) && s'.firstActionAt.None?
  {
    var nextIdx := s.idx + 1;
    if nextIdx >= |s.questions| then s.(phase := Summary)
    else ResetPerQuestion(s.(idx := nextIdx), now)
  }

  /** Everything `handleFamiliarity` writes. */
  datatype Writes = Writes(answer: Option<AnswerDoc>, stat: Option<Stat>, final: Option<SessionFinal>)

  /** `handleFamiliarity(choice)`: with `prev` the stored statistics
      document, `clock` the time the update is made and `next` the time the
      following question is shown. Nothing happens without a pending
      record, a current question, a session and a learner. */
  function HandleFamiliarity(s: State, choice: Familiarity, prev: Option<Stat>,
                             clock: int, next: int): (r: (State, Writes))
    ensures s.pending.None? || CurrentQ(s).None? || s.sessionId == "" || s.userId == "" ==>
              r.0 == s && r.1 == Writes(None, None, None)
    ensures s.pending.Some? && CurrentQ(s).Some? && s.sessionId != "" && s.userId != "" ==>
              && r.1.answer.Some? && r.1.stat.Some?
              && r.1.stat.value.qId == s.questions[s.idx].qId
              && r.1.stat.value.attempts == (if prev.Some? then prev.value.attempts else 0) + 1
              && (r.1.final.Some? <==> s.idx + 1 >= |s.questions|)
              && r.0.records == s.records
              && r.1.answer == Some(AnswerFor(s, s.questions[s.idx], s.pending.value, choice))
              && r.1.stat == Some(UpdateStat(prev, s.userId, s.subject, s.questions[s.idx], s.pending.value, choice, clock))
              && r.1.final == GoNext(s, next).1
              && r.0 == GoNext(s, next).0
  {
    if s.pending.None? || CurrentQ(s).None? || s.sessionId == "" || s.userId == "" then
      (s, Writes(None, None, None))
    else
      var q := s.questions[s.idx];
      var rec := s.pending.value;
      var answer := AnswerFor(s, q, rec, choice);
      var stat := UpdateStat(prev, s.userId, s.subject, q, rec, choice, clock);
      var (s', final) := GoNext(s, next);
      (s', Writes(Some(answer), Some(stat), final))
  }

  /** The shape every reachable state has: the records are the answered
      prefix of the round, one per question, in order, and the pending
      record is the current question's. */
  ghost predicate Inv(s: State)
  {
    && |s.records| <= |s.questions|
    && (s.phase == Answer ==>
          s.pending.None? && |s.records| == s.idx
          && (s.idx < |s.questions| || (s.idx == 0 && |s.questions| == 0)))
    && (s.phase == Feedback ==>
          s.idx < |s.questions| && |s.records| == s.idx + 1 && s.pending == Some(s.records[s.idx]))
    && (s.phase == Summary ==>
          s.idx + 1 == |s.questions| && |s.records| == |s.questions|)
    && (forall i :: 0 <= i < |s.records| ==>
          s.records[i].qId == s.questions[i].qId && s.records[i].readMs >= 0 && s.records[i].answerMs == 0)
  }

  /** Appending the current question's record and moving to `feedback`
      keeps the invariant: the shared step of both answer handlers. */
  lemma AnswerKeepsInv(s: State, s': State, rec: Rec)
    requires Inv(s) && s.phase == Answer && s.idx < |s.questions|
    requires s'.questions == s.questions && s'.idx == s.idx && s'.phase == Feedback
    requires s'.records == s.records + [rec] && s'.pending == Some(rec)
    requires rec.qId == s.questions[s.idx].qId && rec.readMs >= 0 && rec.answerMs == 0
    ensures Inv(s')
  {
    forall i | 0 <= i < |s'.records|
      ensures s'.records[i].qId == s'.questions[i].qId
      ensures s'.records[i].readMs >= 0 && s'.records[i].answerMs == 0
    {
      if i < |s.records| {
        assert s'.records[i] == s.records[i];
      }
    }
  }

  lemma TFPickKeepsInv(s: State, val: bool, now: int)
    requires Inv(s)
    ensures Inv(OnTFPick(s, val, now))
  {
    var s' := OnTFPick(s, val, now);
    if CurrentQ(s).Some? && s.phase == Answer {
      var n := |s.records|;
      assert s'.records == s.records + [s'.records[n]];
      AnswerKeepsInv(s, s', s'.records[n]);
    }
  }

  lemma CardRevealKeepsInv(s: State, now: int)
    requires Inv(s)
    ensures Inv(OnCardReveal(s, now))
  {
    var s' := OnCardReveal(s, now);
    if CurrentQ(s).Some? && s.phase == Answer {
      var n := |s.records|;
      assert s'.records == s.records + [s'.records[n]];
      AnswerKeepsInv(s, s', s'.records[n]);
    }
  }

  lemma FamiliarityKeepsInv(s: State, choice: Familiarity, prev: Option<Stat>, clock: int, next: int)
    requires Inv(s)
    ensures Inv(HandleFamiliarity(s, choice, prev, clock, next).0)
  {
  }

  /** The phases move only `answer -> feedback -> answer | summary`; every
      other action leaves the phase alone. */
  lemma PhaseTransitions(s: State, val: bool, choice: Familiarity, prev: Option<Stat>, clock: int, next: int)
    requires Inv(s)
    ensures OnTFPick(s, val, clock).phase != s.phase ==> s.phase == Answer && OnTFPick(s, val, clock).phase == Feedback
    ensures OnCardReveal(s, clock).phase != s.phase ==> s.phase == Answer && OnCardReveal(s, clock).phase == Feedback
    ensures var p := HandleFamiliarity(s, choice, prev, clock, next).0.phase;
            p != s.phase ==> s.phase == Feedback && (p == Answer || p == Summary)
    ensures var p := HandleFamiliarity(s, choice, prev, clock, next).0.phase;
            s.phase == Feedback && s.sessionId != "" && s.userId != "" ==>
              (p == Summary <==> s.idx + 1 >= |s.questions|)
  {
  }

  /** The answer the page offers for the current question: a TF pick
      `val` for a TF question, a reveal for any other. */
  function AnswerCurrent(s: State, val: bool, now: int): State
  {
    if CurrentQ(s).Some? && IsTF(s.questions[s.idx]) then OnTFPick(s, val, now) else OnCardReveal(s, now)
  }

  lemma AnswerCurrentStep(s: State, val: bool, now: int)
    requires Inv(s) && s.phase == Answer && s.idx < |s.questions|
    ensures var s' := AnswerCurrent(s, val, now);
            && Inv(s') && s'.phase == Feedback && s'.idx == s.idx
            && |s'.records| == |s.records| + 1 && s'.questions == s.questions
            && s'.sessionId == s.sessionId && s'.userId == s.userId
            && s'.pending.Some?
  {
    if IsTF(s.questions[s.idx]) {
      TFPickKeepsInv(s, val, now);
    } else {
      CardRevealKeepsInv(s, now);
    }
  }

  /** Answering and rating advances by exactly one question: the round
      ends after the last. */
  lemma AnswerAndRateAdvances(s: State, val: bool, choice: Familiarity, prev: Option<Stat>, t0: int, t1: int, t2: int)
    requires Inv(s)
    requires s.phase == Answer && s.idx < |s.questions|
    requires s.sessionId != "" && s.userId != ""
    ensures var s' := HandleFamiliarity(AnswerCurrent(s, val, t0), choice, prev, t1, t2).0;
            && Inv(s')
            && |s'.records| == |s.records| + 1
            && s'.questions == s.questions && s'.sessionId == s.sessionId && s'.userId == s.userId
            && (s.idx + 1 < |s.questions| ==> s'.phase == Answer && s'.idx == s.idx + 1)
            && (s.idx + 1 == |s.questions| ==> s'.phase == Summary)
  {
    AnswerCurrentStep(s, val, t0);
    FamiliarityKeepsInv(AnswerCurrent(s, val, t0), choice, prev, t1, t2);
  }

  /** Answering the current question and moving on, all at time `now`. */
  function AnswerAndNext(s: State, val: bool, now: int): State
  {
    NextState(AnswerCurrent(s, val, now), now)
  }

  /** The familiarity choice and the stored statistics decide only what is
      written: answering and rating changes the page state exactly as
      answering and moving on does. */
  lemma RatingOnlyWrites(s: State, val: bool, choice: Familiarity, prev: Option<Stat>, now: int)
    requires Inv(s) && s.phase == Answer && s.idx < |s.questions|
    requires s.sessionId != "" && s.userId != ""
    ensures HandleFamiliarity(AnswerCurrent(s, val, now), choice, prev, now, now).0 == AnswerAndNext(s, val, now)
  {
    AnswerCurrentStep(s, val, now);
  }

  /** The page waits for an answer to a question of a round it can record. */
  ghost predicate Ready(s: State)
  {
    Inv(s) && s.phase == Answer && s.idx < |s.questions| && s.sessionId != "" && s.userId != ""
  }

  /** `s'` is `s` one question further on: waiting for the next question,
      or in `summary` after the last, with the answered prefix recorded. */
  ghost predicate Advances(s: State, s': State)
  {
    && Inv(s')
    && |s'.records| == s.idx + 1
    && s'.questions == s.questions && s'.sessionId == s.sessionId && s'.userId == s.userId
    && (s.idx + 1 < |s.questions| ==> s'.phase == Answer && s'.idx == s.idx + 1)
    && (s.idx + 1 >= |s.questions| ==> s'.phase == Summary)
  }

  lemma AnswerAndNextStep(s: State, val: bool, now: int)
    requires Ready(s)
    ensures Advances(s, AnswerAndNext(s, val, now))
  {
    AnswerAndRateAdvances(s, val, Familiar, None, now, now, now);
    RatingOnlyWrites(s, val, Familiar, None, now);
  }

  /** `k` applications of `step`, starting from `s`. */
  function Iterate(step: State -> State, s: State, k: nat): State
    decreases k
  {
    if k == 0 then s else Iterate(step, step(s), k - 1)
  }

  /** Any step that advances every ready state by one question ends a
      round in `summary`, with one record per question, after as many
      steps as there are questions left. */
  lemma {:induction false} IterateCompletes(step: State -> State, s: State, k: nat)
    requires forall t :: Ready(t) ==> Advances(t, step(t))
    requires Ready(s) && k == |s.questions| - s.idx
    ensures Iterate(step, s, k).phase == Summary
    ensures |Iterate(step, s, k).records| == |s.questions|
    decreases k
  {
    var s' := step(s);
    assert Advances(s, s');
    if k > 1 {
      IterateCompletes(step, s', k - 1);
    }
  }

  /** The page's own buttons, at time `now`: each TF question is answered
      `val`, each other question is revealed, then the page moves on. */
  function AnswerStep(val: bool, now: int): State -> State
  {
    s => AnswerAndNext(s, val, now)
  }

  /** Playing `k` questions of a round through the page's own buttons. */
  function PlayOut(s: State, val: bool, now: int, k: nat): State
  {
    Iterate(AnswerStep(val, now), s, k)
  }

  /** Answering every remaining question ends in `summary` with one record
      per question of the round. */
  lemma PlayOutCompletes(s: State, val: bool, now: int, k: nat)
    requires Inv(s)
    requires s.phase == Answer && s.idx < |s.questions|
    requires s.sessionId != "" && s.userId != ""
    requires k == |s.questions| - s.idx
    ensures PlayOut(s, val, now, k).phase == Summary
    ensures |PlayOut(s, val, now, k).records| == |s.questions|
  {
    forall t | Ready(t)
      ensures Advances(t, AnswerStep(val, now)(t))
    {
      AnswerAndNextStep(t, val, now);
    }
    IterateCompletes(AnswerStep(val, now), s, k);
  }

  /** End to end: a round of three questions, started and played through,
      ends in `summary` with three records. */
  lemma ThreeQuestionRound(round: seq<Question>, now: int)
    requires |round| == 3
    ensures var s := PlayOut(Start(round, "u", "physics", "sid", now), true, now, 3);
            s.phase == Summary && |s.records| == 3
  {
    PlayOutCompletes(Start(round, "u", "physics", "sid", now), true, now, 3);
  }
}

=== FILE: shuffle.dfy ===
/** `shuffle` (page.js:79-86): Fisher–Yates on a copy of the array. The
    draw for position `i` (from the top down to 1) is `us[|a| - 1 - i]`. */
module Shuffle {
  import opened Common

  function Swap<T>(a: seq<T>, i: nat, j: nat): (r: seq<T>)
    requires i < |a| && j < |a|
    ensures |r| == |a|
    ensures multiset(r) == multiset(a)
    ensures r[i] == a[j] && r[j] == a[i]
    ensures forall k :: 0 <= k < |a| && k != i && k != j ==> r[k] == a[k]
  {
    a[i := a[j]][j := a[i]]
  }

  /** The loop from position `i` down to 1, one draw per step. */
  function Steps<T>(a: seq<T>, i: int, us: seq<real>): (r: seq<T>)
    requires i < |a|
    requires |us| >= i
    requires AllDraws(us)
    ensures |r| == |a|
    ensures multiset(r) == multiset(a)
    decreases i
  {
    if i <= 0 then a
    else
      var j := RandIndex(us[0], i + 1);
      Steps(Swap(a, i, j), i - 1, us[1..])
  }

  /** The shuffled copy. The argument itself is a value and is untouched. */
  function Shuffle<T>(a: seq<T>, us: seq<real>): (r: seq<T>)
    requires |us| >= |a| - 1
    requires AllDraws(us)
    ensures |r| == |a|
    ensures multiset(r) == multiset(a)
  {
    Steps(a, |a| - 1, us)
  }

  /** Shuffling keeps every element and adds none. */
  lemma ShuffleSameElements<T>(a: seq<T>, us: seq<real>)
    requires |us| >= |a| - 1
    requires AllDraws(us)
    ensures forall x :: x in Shuffle(a, us) <==> x in a
  {
    var r := Shuffle(a, us);
    forall x
      ensures x in r <==> x in a
    {
      assert x in r <==> x in multiset(r);
      assert x in a <==> x in multiset(a);
    }
  }

  /** A shuffle of distinct elements has distinct elements. */
  lemma ShuffleKeepsDistinct<T>(a: seq<T>, us: seq<real>)
    requires |us| >= |a| - 1
    requires AllDraws(us)
    requires Distinct(a)
    ensures Distinct(Shuffle(a, us))
  {
    DistinctByMultiset(a, Shuffle(a, us));
  }
}

=== FILE: summary.dfy ===
/** The end-of-round figures: total time (page.js:147-150, 489, 495), the
    TF-only accuracy that is persisted (page.js:487-497), the per-topic
    timing table sorted slowest first (page.js:154-168), and the on-screen
    TF ratio (page.js:152, 544-545). */
module Summary {
  import opened Common
  import opened Domain

  /** The label of a record without a topic. */
  const Unclassified: string := "（未分類）"

  /** `(r.read_ms || 0) + (r.answer_ms || 0)`. */
  function RecMs(r: Rec): int
  {
    r.readMs + r.answerMs
  }

  /** `records.reduce((acc, r) => acc + read + answer, 0)`. */
  function TotalMs(rs: seq<Rec>): (t: int)
    ensures (forall i :: 0 <= i < |rs| ==> rs[i].readMs >= 0 && rs[i].answerMs >= 0) ==> t >= 0
  {
    if |rs| == 0 then 0 else TotalMs(rs[..|rs| - 1]) + RecMs(rs[|rs| - 1])
  }

  /** `Math.round(ms / 1000)`: the whole number of seconds nearest to
      `ms`, halves rounded up. */
  function MsToSec(ms: int): (s: int)
    ensures 1000 * s - 500 <= ms < 1000 * s + 500
  {
    (ms + 500) / 1000
  }

  /** `Math.round(x)`: the integer nearest to `x`, halves rounded up. */
  function RoundHalfUp(x: real): (n: int)
    ensures n as real - 0.5 <= x < n as real + 0.5
  {
    (x + 0.5).Floor
  }

  function TfCount(rs: seq<Rec>): (n: nat)
    ensures n <= |rs|
  {
    if |rs| == 0 then 0
    else TfCount(rs[..|rs| - 1]) + (if rs[|rs| - 1].recType == TF then 1 else 0)
  }

  /** `records.filter(r => r.type === "TF" && r.is_correct).length`. */
  function TfCorrectCount(rs: seq<Rec>): (n: nat)
    ensures n <= TfCount(rs)
  {
    if |rs| == 0 then 0
    else
      var last := rs[|rs| - 1];
      TfCorrectCount(rs[..|rs| - 1]) + (if last.recType == TF && last.isCorrect then 1 else 0)
  }

  /** The persisted accuracy: TF-correct over TF count, 0 without TF. */
  function Accuracy(rs: seq<Rec>): (a: real)
    ensures 0.0 <= a <= 1.0
    ensures TfCount(rs) == 0 ==> a == 0.0
    ensures TfCount(rs) > 0 ==> IsRatioOf(a, TfCorrectCount(rs), TfCount(rs))
  {
    var tf := TfCount(rs);
    var cc := TfCorrectCount(rs);
    if tf > 0 then Ratio(cc, tf) else 0.0
  }

  /** `a` times `t` is `c`. */
  predicate IsRatioOf(a: real, c: nat, t: nat)
  {
    a * t as real == c as real
  }

  /** `c / t` for counts `c <= t`, `t` positive. */
  function Ratio(c: nat, t: nat): (a: real)
    requires c <= t && t > 0
    ensures 0.0 <= a <= 1.0
    ensures IsRatioOf(a, c, t)
  {
    c as real / t as real
  }

  /** A CARD record changes neither count, so not the accuracy either. */
  lemma AccuracyIgnoresCards(rs: seq<Rec>, card: Rec)
    requires card.recType == CARD
    ensures TfCount(rs + [card]) == TfCount(rs)
    ensures TfCorrectCount(rs + [card]) == TfCorrectCount(rs)
    ensures Accuracy(rs + [card]) == Accuracy(rs)
  {
    assert (rs + [card])[..|rs|] == rs;
  }

  /** Two TF records (one correct) and three CARD records give 0.5, not
      0.2. */
  lemma AccuracyExample(t1: Rec, t2: Rec, c1: Rec, c2: Rec, c3: Rec)
    requires t1.recType == TF && t1.isCorrect
    requires t2.recType == TF && !t2.isCorrect
    requires c1.recType == CARD && c2.recType == CARD && c3.recType == CARD
    ensures Accuracy([t1, c1, t2, c2, c3]) == 0.5
  {
    var rs := [t1, c1, t2, c2, c3];
    assert rs[..4] == [t1, c1, t2, c2];
    assert rs[..4][..3] == [t1, c1, t2];
    assert [t1, c1, t2][..2] == [t1, c1];
    assert [t1, c1][..1] == [t1];
    assert [t1][..0] == [];
    assert TfCount([t1]) == 1 && TfCorrectCount([t1]) == 1;
    assert TfCount([t1, c1]) == 1 && TfCorrectCount([t1, c1]) == 1;
    assert TfCount([t1, c1, t2]) == 2 && TfCorrectCount([t1, c1, t2]) == 1;
    assert TfCount([t1, c1, t2, c2]) == 2 && TfCorrectCount([t1, c1, t2, c2]) == 1;
    assert TfCount(rs) == 2 && TfCorrectCount(rs) == 1;
  }

  // ---------------------------------------------------------------------
  // The displayed TF ratio

  /** `correctCount` as displayed: every correct record, CARD included. */
  function DisplayedCorrectCount(rs: seq<Rec>): (n: nat)
    ensures n <= |rs|
  {
    if |rs| == 0 then 0
    else DisplayedCorrectCount(rs[..|rs| - 1]) + (if rs[|rs| - 1].isCorrect then 1 else 0)
  }

  /** The correct CARD records, which a reveal always produces. */
  function CardCorrectCount(rs: seq<Rec>): (n: nat)
    ensures n <= |rs|
  {
    if |rs| == 0 then 0
    else
      var last := rs[|rs| - 1];
      CardCorrectCount(rs[..|rs| - 1]) + (if last.recType == CARD && last.isCorrect then 1 else 0)
  }

  /** The displayed count is the correct TF records plus the correct CARD
      records: every revealed card raises the "TF correct" figure. */
  lemma {:induction false} DisplayedCountSplits(rs: seq<Rec>)
    ensures DisplayedCorrectCount(rs) == TfCorrectCount(rs) + CardCorrectCount(rs)
  {
    if |rs| > 0 {
      DisplayedCountSplits(rs[..|rs| - 1]);
    }
  }

  /** `accPct` as written: the displayed correct count over the TF count,
      as a rounded percentage; 0 without TF records. */
  function DisplayedAccPct(rs: seq<Rec>): (p: int)
    ensures p >= 0
    ensures TfCount(rs) == 0 ==> p == 0
    ensures TfCount(rs) > 0 ==>
              p as real - 0.5 <= DisplayedCorrectCount(rs) as real / TfCount(rs) as real * 100.0 < p as real + 0.5
  {
    var tf := TfCount(rs);
    if tf > 0 then RoundHalfUp(DisplayedCorrectCount(rs) as real / tf as real * 100.0) else 0
  }

  /** One correct TF answer and one revealed card show "2 / 1 (200%)". */
  lemma DisplayedAccPctExceeds100(t: Rec, c: Rec)
    requires t.recType == TF && t.isCorrect
    requires c.recType == CARD && c.isCorrect
    ensures DisplayedCorrectCount([t, c]) == 2
    ensures TfCount([t, c]) == 1
    ensures DisplayedAccPct([t, c]) == 200
  {
    assert [t, c][..1] == [t];
    assert [t][..0] == [];
  }

  lemma UnitRatio(x: real)
    requires x > 0.0
    ensures x / x == 1.0
  {
  }

  /** Every TF answer right means accuracy exactly 1. */
  lemma AllCorrectIsOne(rs: seq<Rec>)
    ensures TfCount(rs) > 0 && TfCorrectCount(rs) == TfCount(rs) ==> Accuracy(rs) == 1.0
  {
    var t := TfCount(rs);
    if t > 0 && TfCorrectCount(rs) == t {
      UnitRatio(t as real);
    }
  }

  /** The TF ratio the label promises: the persisted accuracy as a
      rounded percentage. */
  function TfAccPct(rs: seq<Rec>): (p: int)
    ensures 0 <= p <= 100
    ensures TfCount(rs) == 0 ==> p == 0
    ensures TfCount(rs) > 0 && TfCorrectCount(rs) == TfCount(rs) ==> p == 100
    ensures TfCount(rs) > 0 ==> p as real - 0.5 <= Accuracy(rs) * 100.0 < p as real + 0.5
  {
    AllCorrectIsOne(rs);
    RoundHalfUp(Accuracy(rs) * 100.0)
  }

  // ---------------------------------------------------------------------
  // Per-topic timing

  datatype TopicStat = TopicStat(topic: string, totalMs: int, readMs: int, answerMs: int, count: nat)

  /** `r.core_topic || "（未分類）"`. */
  function TopicOf(r: Rec): string
  {
    if r.coreTopic == "" then Unclassified else r.coreTopic
  }

  function CountTopic(rs: seq<Rec>, t: string): nat
  {
    if |rs| == 0 then 0
    else CountTopic(rs[..|rs| - 1], t) + (if TopicOf(rs[|rs| - 1]) == t then 1 else 0)
  }

  function TopicMs(rs: seq<Rec>, t: string): int
  {
    if |rs| == 0 then 0
    else TopicMs(rs[..|rs| - 1], t) + (if TopicOf(rs[|rs| - 1]) == t then RecMs(rs[|rs| - 1]) else 0)
  }

  function TopicReadMs(rs: seq<Rec>, t: string): int
  {
    if |rs| == 0 then 0
    else TopicReadMs(rs[..|rs| - 1], t) + (if TopicOf(rs[|rs| - 1]) == t then rs[|rs| - 1].readMs else 0)
  }

  function TopicAnswerMs(rs: seq<Rec>, t: string): int
  {
    if |rs| == 0 then 0
    else TopicAnswerMs(rs[..|rs| - 1], t) + (if TopicOf(rs[|rs| - 1]) == t then rs[|rs| - 1].answerMs else 0)
  }

  function SumCount(gs: seq<TopicStat>): int
  {
    if |gs| == 0 then 0 else SumCount(gs[..|gs| - 1]) + gs[|gs| - 1].count
  }

  function SumTotal(gs: seq<TopicStat>): int
  {
    if |gs| == 0 then 0 else SumTotal(gs[..|gs| - 1]) + gs[|gs| - 1].totalMs
  }

  ghost predicate DistinctTopics(gs: seq<TopicStat>)
  {
    forall i, j :: 0 <= i < j < |gs| ==> gs[i].topic != gs[j].topic
  }

  /** The index of topic `t`'s entry, or `|gs|` when there is none. */
  function FindTopic(gs: seq<TopicStat>, t: string): (i: nat)
    ensures i <= |gs|
    ensures i < |gs| ==> gs[i].topic == t
    ensures i == |gs| ==> forall j :: 0 <= j < |gs| ==> gs[j].topic != t
  {
    if |gs| == 0 then 0
    else if gs[0].topic == t then 0
    else 1 + FindTopic(gs[1..], t)
  }

  /** One pass of the `for` loop: create the topic's entry if missing, then
      add the record's times and one to its count. */
  function AddRecord(gs: seq<TopicStat>, r: Rec): (gs': seq<TopicStat>)
  {
    var t := TopicOf(r);
    var i := FindTopic(gs, t);
    var base := if i < |gs| then gs else gs + [TopicStat(t, 0, 0, 0, 0)];
    base[i := Bump(base[i], r)]
  }

  /** `t.total_ms += …; t.read_ms += …; t.answer_ms += …; t.count += 1`. */
  function Bump(g: TopicStat, r: Rec): TopicStat
  {
    TopicStat(g.topic, g.totalMs + RecMs(r), g.readMs + r.readMs, g.answerMs + r.answerMs, g.count + 1)
  }

  lemma {:induction false} SumUpdate(gs: seq<TopicStat>, i: nat, g: TopicStat)
    requires i < |gs|
    ensures SumCount(gs[i := g]) == SumCount(gs) - gs[i].count + g.count
    ensures SumTotal(gs[i := g]) == SumTotal(gs) - gs[i].totalMs + g.totalMs
  {
    var n := |gs| - 1;
    if i < n {
      assert gs[i := g][..n] == gs[..n][i := g];
      SumUpdate(gs[..n], i, g);
    } else {
      assert gs[i := g][..n] == gs[..n];
    }
  }

  lemma AppendSums(gs: seq<TopicStat>, g: TopicStat)
    ensures SumCount(gs + [g]) == SumCount(gs) + g.count
    ensures SumTotal(gs + [g]) == SumTotal(gs) + g.totalMs
  {
    assert (gs + [g])[..|gs|] == gs;
  }

  /** The grouping, one entry per topic, topics in order of first
      appearance. */
  function Group(rs: seq<Rec>): (gs: seq<TopicStat>)
    ensures GroupsRecords(rs, gs)
    ensures FirstSeenOrder(rs, gs)
  {
    if |rs| == 0 then []
    else
      var init := rs[..|rs| - 1];
      var r := rs[|rs| - 1];
      var g := Group(init);
      AddRecordStep(init, r, g);
      AddRecordOrder(init, r, g);
      SnocSplit(rs);
      AddRecord(g, r)
  }

  /** Each entry holds its topic's record count (at least one) and its
      total, reading and answering time. */
  ghost predicate EntriesMatch(rs: seq<Rec>, gs: seq<TopicStat>)
  {
    forall i :: 0 <= i < |gs| ==>
      && gs[i].count == CountTopic(rs, gs[i].topic) > 0
      && gs[i].totalMs == TopicMs(rs, gs[i].topic)
      && gs[i].readMs == TopicReadMs(rs, gs[i].topic)
      && gs[i].answerMs == TopicAnswerMs(rs, gs[i].topic)
      && gs[i].totalMs == gs[i].readMs + gs[i].answerMs
  }

  /** Every topic that occurs has an entry. */
  ghost predicate CoversTopics(rs: seq<Rec>, gs: seq<TopicStat>)
  {
    forall t :: CountTopic(rs, t) > 0 ==> exists i :: 0 <= i < |gs| && gs[i].topic == t
  }

  /** What the grouping computes: one entry per topic that occurs, with
      the topic's record count and time, and totals that add up. */
  ghost predicate GroupsRecords(rs: seq<Rec>, gs: seq<TopicStat>)
  {
    && DistinctTopics(gs)
    && EntriesMatch(rs, gs)
    && CoversTopics(rs, gs)
    && SumCount(gs) == |rs|
    && SumTotal(gs) == TotalMs(rs)
  }

  /** The position of the first record of topic `t`, or `|rs|` when no
      record has it: the position at which the `Map` gains the topic. */
  function FirstAt(rs: seq<Rec>, t: string): (f: nat)
    ensures f <= |rs|
    ensures f < |rs| ==> TopicOf(rs[f]) == t
    ensures forall k :: 0 <= k < f ==> TopicOf(rs[k]) != t
  {
    if |rs| == 0 then 0
    else
      var init := rs[..|rs| - 1];
      var f := FirstAt(init, t);
      assert forall k :: 0 <= k < |init| ==> rs[k] == init[k];
      if f < |init| || TopicOf(rs[|rs| - 1]) == t then f else |rs|
  }

  /** A `Map` iterates in insertion order: the entries' topics appear in
      the order of their first records. */
  ghost predicate FirstSeenOrder(rs: seq<Rec>, gs: seq<TopicStat>)
  {
    forall i, j :: 0 <= i < j < |gs| ==> FirstAt(rs, gs[i].topic) < FirstAt(rs, gs[j].topic)
  }

  /** A topic has a first record exactly when it has a record. */
  lemma {:induction false} FirstAtCount(rs: seq<Rec>, t: string)
    ensures FirstAt(rs, t) < |rs| <==> CountTopic(rs, t) > 0
  {
    if |rs| > 0 {
      FirstAtCount(rs[..|rs| - 1], t);
    }
  }

  lemma FirstAtSnoc(rs: seq<Rec>, r: Rec, t: string)
    ensures FirstAt(rs + [r], t)
         == if FirstAt(rs, t) < |rs| then FirstAt(rs, t) else if TopicOf(r) == t then |rs| else |rs| + 1
  {
    assert (rs + [r])[..|rs|] == rs;
  }

  /** One pass of the loop keeps the entries in first-appearance order: an
      existing entry keeps its place and a new topic goes last. */
  lemma AddRecordOrder(rs: seq<Rec>, r: Rec, gs: seq<TopicStat>)
    requires GroupsRecords(rs, gs) && FirstSeenOrder(rs, gs)
    ensures FirstSeenOrder(rs + [r], AddRecord(gs, r))
  {
    var t := TopicOf(r);
    var i := FindTopic(gs, t);
    var base := if i < |gs| then gs else gs + [TopicStat(t, 0, 0, 0, 0)];
    assert AddRecord(gs, r) == base[i := Bump(base[i], r)];
    forall j | 0 <= j < |gs|
      ensures FirstAt(rs + [r], gs[j].topic) == FirstAt(rs, gs[j].topic) < |rs|
    {
      FirstAtCount(rs, gs[j].topic);
      FirstAtSnoc(rs, r, gs[j].topic);
    }
    assert FirstSeenOrder(rs + [r], gs);
    if i == |gs| {
      assert CountTopic(rs, t) == 0;
      FirstAtCount(rs, t);
      FirstAtSnoc(rs, r, t);
      OrderSnoc(rs + [r], gs, TopicStat(t, 0, 0, 0, 0));
    }
    SameTopicsOrder(rs + [r], base, base[i := Bump(base[i], r)]);
  }

  /** An entry whose topic came after every listed one can go last. */
  lemma OrderSnoc(rs: seq<Rec>, gs: seq<TopicStat>, g: TopicStat)
    requires FirstSeenOrder(rs, gs)
    requires forall j :: 0 <= j < |gs| ==> FirstAt(rs, gs[j].topic) < FirstAt(rs, g.topic)
    ensures FirstSeenOrder(rs, gs + [g])
  {
    var r := gs + [g];
    forall a, b | 0 <= a < b < |r|
      ensures FirstAt(rs, r[a].topic) < FirstAt(rs, r[b].topic)
    {
      assert r[a] == gs[a];
      if b < |gs| {
        assert r[b] == gs[b];
      }
    }
  }

  /** The order depends only on the topics. */
  lemma SameTopicsOrder(rs: seq<Rec>, gs: seq<TopicStat>, hs: seq<TopicStat>)
    requires FirstSeenOrder(rs, gs)
    requires |hs| == |gs| && forall j :: 0 <= j < |gs| ==> hs[j].topic == gs[j].topic
    ensures FirstSeenOrder(rs, hs)
  {
  }

  lemma CountStep(rs: seq<Rec>, r: Rec, t: string)
    ensures CountTopic(rs + [r], t) == CountTopic(rs, t) + (if TopicOf(r) == t then 1 else 0)
    ensures TopicMs(rs + [r], t) == TopicMs(rs, t) + (if TopicOf(r) == t then RecMs(r) else 0)
    ensures TopicReadMs(rs + [r], t) == TopicReadMs(rs, t) + (if TopicOf(r) == t then r.readMs else 0)
    ensures TopicAnswerMs(rs + [r], t) == TopicAnswerMs(rs, t) + (if TopicOf(r) == t then r.answerMs else 0)
    ensures TotalMs(rs + [r]) == TotalMs(rs) + RecMs(r)
  {
    assert (rs + [r])[..|rs|] == rs;
  }

  lemma {:induction false} TopicMsZero(rs: seq<Rec>, t: string)
    requires CountTopic(rs, t) == 0
    ensures TopicMs(rs, t) == 0
    ensures TopicReadMs(rs, t) == 0 && TopicAnswerMs(rs, t) == 0
  {
    if |rs| > 0 {
      TopicMsZero(rs[..|rs| - 1], t);
    }
  }

  /** The entry list before the bump: the existing list, or the list with
      an empty entry for a new topic appended. Same facts, zero counts. */
  lemma BaseStep(rs: seq<Rec>, t: string, gs: seq<TopicStat>)
    requires GroupsRecords(rs, gs)
    requires FindTopic(gs, t) == |gs|
    ensures var base := gs + [TopicStat(t, 0, 0, 0, 0)];
            && DistinctTopics(base)
            && SumCount(base) == |rs| && SumTotal(base) == TotalMs(rs)
            && CountTopic(rs, t) == 0 && TopicMs(rs, t) == 0
            && TopicReadMs(rs, t) == 0 && TopicAnswerMs(rs, t) == 0
  {
    assert CountTopic(rs, t) == 0;
    TopicMsZero(rs, t);
    AppendSums(gs, TopicStat(t, 0, 0, 0, 0));
  }

  lemma AddRecordStep(rs: seq<Rec>, r: Rec, gs: seq<TopicStat>)
    requires GroupsRecords(rs, gs)
    ensures GroupsRecords(rs + [r], AddRecord(gs, r))
  {
    var t := TopicOf(r);
    var i := FindTopic(gs, t);
    var base := if i < |gs| then gs else gs + [TopicStat(t, 0, 0, 0, 0)];
    assert AddRecord(gs, r) == base[i := Bump(base[i], r)];
    if i == |gs| {
      BaseStep(rs, t, gs);
    }
    StepSums(rs, r, base, i);
    StepEntries(rs, r, gs, base, i);
    StepCovers(rs, r, gs, base, i);
  }

  /** Bumping the record's entry keeps the topics apart and the sums
      equal to the record count and the total time. */
  lemma StepSums(rs: seq<Rec>, r: Rec, base: seq<TopicStat>, i: nat)
    requires DistinctTopics(base)
    requires i < |base| && base[i].topic == TopicOf(r)
    requires SumCount(base) == |rs| && SumTotal(base) == TotalMs(rs)
    ensures var gs' := base[i := Bump(base[i], r)];
            && DistinctTopics(gs')
            && SumCount(gs') == |rs + [r]|
            && SumTotal(gs') == TotalMs(rs + [r])
  {
    var gs' := base[i := Bump(base[i], r)];
    CountStep(rs, r, TopicOf(r));
    SumUpdate(base, i, Bump(base[i], r));
    forall a, b | 0 <= a < b < |gs'|
      ensures gs'[a].topic != gs'[b].topic
    {
      assert gs'[a].topic == base[a].topic && gs'[b].topic == base[b].topic;
    }
  }

  lemma StepEntries(rs: seq<Rec>, r: Rec, gs: seq<TopicStat>, base: seq<TopicStat>, i: nat)
    requires EntriesMatch(rs, gs)
    requires DistinctTopics(base)
    requires i < |base| && base[i].topic == TopicOf(r)
    requires |base| == |gs| || (|base| == |gs| + 1 && i == |gs|)
    requires forall j :: 0 <= j < |gs| ==> base[j] == gs[j]
    requires i == |gs| ==> base[i] == TopicStat(TopicOf(r), 0, 0, 0, 0)
                           && CountTopic(rs, TopicOf(r)) == 0 && TopicMs(rs, TopicOf(r)) == 0
                           && TopicReadMs(rs, TopicOf(r)) == 0 && TopicAnswerMs(rs, TopicOf(r)) == 0
    ensures EntriesMatch(rs + [r], base[i := Bump(base[i], r)])
  {
    var gs' := base[i := Bump(base[i], r)];
    forall j | 0 <= j < |gs'|
      ensures gs'[j].count == CountTopic(rs + [r], gs'[j].topic) > 0
      ensures gs'[j].totalMs == TopicMs(rs + [r], gs'[j].topic)
      ensures gs'[j].readMs == TopicReadMs(rs + [r], gs'[j].topic)
      ensures gs'[j].answerMs == TopicAnswerMs(rs + [r], gs'[j].topic)
      ensures gs'[j].totalMs == gs'[j].readMs + gs'[j].answerMs
    {
      CountStep(rs, r, gs'[j].topic);
      if j != i {
        assert base[j].topic != base[i].topic;
      }
    }
  }

  lemma StepCovers(rs: seq<Rec>, r: Rec, gs: seq<TopicStat>, base: seq<TopicStat>, i: nat)
    requires CoversTopics(rs, gs)
    requires i < |base| && base[i].topic == TopicOf(r)
    requires |gs| <= |base|
    requires forall j :: 0 <= j < |gs| ==> base[j] == gs[j]
    ensures CoversTopics(rs + [r], base[i := Bump(base[i], r)])
  {
    var gs' := base[i := Bump(base[i], r)];
    forall u | CountTopic(rs + [r], u) > 0
      ensures exists j :: 0 <= j < |gs'| && gs'[j].topic == u
    {
      CountStep(rs, r, u);
      if u == TopicOf(r) {
        assert gs'[i].topic == u;
      } else {
        var j :| 0 <= j < |gs| && gs[j].topic == u;
        assert gs'[j].topic == u;
      }
    }
  }

  // ---------------------------------------------------------------------
  // `.sort((a, b) => b.total_ms - a.total_ms)`, a stable sort

  predicate SortedDesc(gs: seq<TopicStat>)
  {
    forall i, j :: 0 <= i < j < |gs| ==> gs[i].totalMs >= gs[j].totalMs
  }

  /** Insert `x` after every entry at least as slow: equal totals keep
      their original order. */
  function Insert(x: TopicStat, s: seq<TopicStat>): (r: seq<TopicStat>)
    requires SortedDesc(s)
    ensures SortedDesc(r)
    ensures multiset(r) == multiset(s) + multiset{x}
  {
    if |s| == 0 then [x]
    else if s[0].totalMs >= x.totalMs then
      SortedTail(s);
      var rest := Insert(x, s[1..]);
      assert s == [s[0]] + s[1..];
      InsertBounded(s[0], x, s[1..], rest);
      [s[0]] + rest
    else
      SortedCons(x, s);
      [x] + s
  }

  /** Below the head of a sorted table comes a sorted table of entries no
      slower than the head. */
  lemma SortedTail(s: seq<TopicStat>)
    requires SortedDesc(s) && |s| > 0
    ensures SortedDesc(s[1..])
    ensures forall y :: y in s[1..] ==> y.totalMs <= s[0].totalMs
  {
    forall a, b | 0 <= a < b < |s| - 1
      ensures s[1..][a].totalMs >= s[1..][b].totalMs
    {
      assert s[1..][a] == s[a + 1] && s[1..][b] == s[b + 1];
    }
  }

  /** An entry at least as slow as the head of a sorted table can go in
      front of it. */
  lemma SortedCons(x: TopicStat, s: seq<TopicStat>)
    requires SortedDesc(s)
    requires |s| > 0 ==> x.totalMs >= s[0].totalMs
    ensures SortedDesc([x] + s)
  {
    var c := [x] + s;
    forall a, b | 0 <= a < b < |c|
      ensures c[a].totalMs >= c[b].totalMs
    {
      assert c[b] == s[b - 1];
      if a > 0 {
        assert c[a] == s[a - 1];
      }
    }
  }

  lemma InsertBounded(h: TopicStat, x: TopicStat, tail: seq<TopicStat>, rest: seq<TopicStat>)
    requires x.totalMs <= h.totalMs
    requires forall y :: y in tail ==> y.totalMs <= h.totalMs
    requires multiset(rest) == multiset(tail) + multiset{x}
    requires SortedDesc(rest)
    ensures SortedDesc([h] + rest)
  {
    forall y | y in rest
      ensures y.totalMs <= h.totalMs
    {
      assert y in multiset(rest);
    }
  }

  lemma {:induction false} HeadSums(g: TopicStat, s: seq<TopicStat>)
    ensures SumCount([g] + s) == g.count + SumCount(s)
    ensures SumTotal([g] + s) == g.totalMs + SumTotal(s)
  {
    if |s| > 0 {
      var n := |s| - 1;
      assert ([g] + s)[..n + 1] == [g] + s[..n];
      HeadSums(g, s[..n]);
    }
  }

  lemma {:induction false} InsertSums(x: TopicStat, s: seq<TopicStat>)
    requires SortedDesc(s)
    ensures SumCount(Insert(x, s)) == SumCount(s) + x.count
    ensures SumTotal(Insert(x, s)) == SumTotal(s) + x.totalMs
  {
    if |s| == 0 {
      HeadSums(x, []);
    } else if s[0].totalMs >= x.totalMs {
      InsertSums(x, s[1..]);
      assert s == [s[0]] + s[1..];
      HeadSums(s[0], s[1..]);
      HeadSums(s[0], Insert(x, s[1..]));
    } else {
      HeadSums(x, s);
    }
  }

  function SortDesc(gs: seq<TopicStat>): (r: seq<TopicStat>)
    ensures SortedDesc(r)
    ensures multiset(r) == multiset(gs)
  {
    if |gs| == 0 then []
    else
      assert gs == gs[..|gs| - 1] + [gs[|gs| - 1]];
      Insert(gs[|gs| - 1], SortDesc(gs[..|gs| - 1]))
  }

  /** The entries whose total is `v`, in their order. */
  function WithTotal(gs: seq<TopicStat>, v: int): (r: seq<TopicStat>)
  {
    if |gs| == 0 then []
    else (if gs[0].totalMs == v then [gs[0]] else []) + WithTotal(gs[1..], v)
  }

  lemma {:induction false} WithTotalAppend(a: seq<TopicStat>, b: seq<TopicStat>, v: int)
    ensures WithTotal(a + b, v) == WithTotal(a, v) + WithTotal(b, v)
  {
    if |a| > 0 {
      assert (a + b)[1..] == a[1..] + b;
      WithTotalAppend(a[1..], b, v);
    } else {
      assert a + b == b;
    }
  }

  lemma {:induction false} WithTotalNone(gs: seq<TopicStat>, v: int)
    requires forall i :: 0 <= i < |gs| ==> gs[i].totalMs != v
    ensures WithTotal(gs, v) == []
  {
    if |gs| > 0 {
      WithTotalNone(gs[1..], v);
    }
  }

  lemma WithTotalCons(h: TopicStat, t: seq<TopicStat>, v: int)
    ensures WithTotal([h] + t, v) == (if h.totalMs == v then [h] else []) + WithTotal(t, v)
  {
    assert ([h] + t)[1..] == t;
  }

  /** `Insert` puts `x` after every entry of its own total. */
  lemma {:induction false} InsertStable(x: TopicStat, s: seq<TopicStat>, v: int)
    requires SortedDesc(s)
    ensures WithTotal(Insert(x, s), v) == WithTotal(s, v) + (if x.totalMs == v then [x] else [])
  {
    if |s| == 0 {
      WithTotalCons(x, [], v);
      assert [x] + [] == [x];
    } else if s[0].totalMs >= x.totalMs {
      assert SortedDesc(s[1..]);
      InsertStable(x, s[1..], v);
      InsertBehind(x, s, v);
    } else {
      InsertFront(x, s, v);
    }
  }

  /** The step where `x` goes behind the head. */
  lemma InsertBehind(x: TopicStat, s: seq<TopicStat>, v: int)
    requires SortedDesc(s) && |s| > 0 && s[0].totalMs >= x.totalMs
    requires WithTotal(Insert(x, s[1..]), v) == WithTotal(s[1..], v) + (if x.totalMs == v then [x] else [])
    ensures WithTotal(Insert(x, s), v) == WithTotal(s, v) + (if x.totalMs == v then [x] else [])
  {
    var rest := Insert(x, s[1..]);
    var h := if s[0].totalMs == v then [s[0]] else [];
    var a := WithTotal(s[1..], v);
    var t := if x.totalMs == v then [x] else [];
    assert Insert(x, s) == [s[0]] + rest;
    WithTotalCons(s[0], rest, v);
    WithTotalCons(s[0], s[1..], v);
    assert [s[0]] + s[1..] == s;
    assert WithTotal(Insert(x, s), v) == h + (a + t);
    assert WithTotal(s, v) == h + a;
    ConcatAssoc(h, a, t);
  }

  /** The step where `x` is slower than every entry and goes first. */
  lemma InsertFront(x: TopicStat, s: seq<TopicStat>, v: int)
    requires SortedDesc(s) && |s| > 0 && s[0].totalMs < x.totalMs
    ensures WithTotal(Insert(x, s), v) == WithTotal(s, v) + (if x.totalMs == v then [x] else [])
  {
    assert Insert(x, s) == [x] + s;
    WithTotalCons(x, s, v);
    if x.totalMs == v {
      assert forall i :: 0 <= i < |s| ==> s[i].totalMs <= s[0].totalMs < v;
      WithTotalNone(s, v);
    }
  }

  lemma SortDescUnfold(gs: seq<TopicStat>)
    requires |gs| > 0
    ensures SortDesc(gs) == Insert(gs[|gs| - 1], SortDesc(gs[..|gs| - 1]))
  {
  }

  lemma WithTotalSnoc(init: seq<TopicStat>, last: TopicStat, v: int)
    ensures WithTotal(init + [last], v) == WithTotal(init, v) + (if last.totalMs == v then [last] else [])
  {
    WithTotalAppend(init, [last], v);
    assert WithTotal([last], v) == (if last.totalMs == v then [last] else []) + WithTotal([], v);
  }

  /** The sort is stable: entries with equal totals keep their original
      order, as `Array.prototype.sort` guarantees. */
  lemma {:induction false} SortDescStable(gs: seq<TopicStat>, v: int)
    ensures WithTotal(SortDesc(gs), v) == WithTotal(gs, v)
  {
    if |gs| > 0 {
      var init := gs[..|gs| - 1];
      var last := gs[|gs| - 1];
      SortDescStable(init, v);
      StableStep(init, last, v);
      SnocSplit(gs);
    }
  }

  /** One more entry keeps the sort stable if it was stable before. */
  lemma StableStep(init: seq<TopicStat>, last: TopicStat, v: int)
    ensures WithTotal(SortDesc(init), v) == WithTotal(init, v) ==>
            WithTotal(SortDesc(init + [last]), v) == WithTotal(init + [last], v)
  {
    var gs := init + [last];
    assert gs[..|gs| - 1] == init;
    SortDescUnfold(gs);
    InsertStable(last, SortDesc(init), v);
    WithTotalSnoc(init, last, v);
  }

  lemma {:induction false} SortSums(gs: seq<TopicStat>)
    ensures SumCount(SortDesc(gs)) == SumCount(gs)
    ensures SumTotal(SortDesc(gs)) == SumTotal(gs)
  {
    if |gs| > 0 {
      var init := gs[..|gs| - 1];
      SortSums(init);
      InsertSums(gs[|gs| - 1], SortDesc(init));
    }
  }

  /** `topicStats`: the grouping sorted slowest first. */
  function TopicStats(rs: seq<Rec>): (ts: seq<TopicStat>)
    ensures SortedDesc(ts)
  {
    SortDesc(Group(rs))
  }

  /** The entries kept by `WithTotal` are entries of the input with that
      total. */
  lemma {:induction false} WithTotalSub(gs: seq<TopicStat>, v: int, x: TopicStat)
    requires x in WithTotal(gs, v)
    ensures x in gs && x.totalMs == v
  {
    if |gs| > 0 {
      if !(gs[0].totalMs == v && x == gs[0]) {
        assert x in WithTotal(gs[1..], v);
        WithTotalSub(gs[1..], v, x);
        assert x in gs[1..];
      }
    }
  }

  /** Dropping the first entry keeps the rest in order. */
  lemma OrderTail(rs: seq<Rec>, gs: seq<TopicStat>)
    requires |gs| > 0 && FirstSeenOrder(rs, gs)
    ensures FirstSeenOrder(rs, gs[1..])
    ensures forall y :: y in gs[1..] ==> FirstAt(rs, gs[0].topic) < FirstAt(rs, y.topic)
  {
    var tail := gs[1..];
    forall i, j | 0 <= i < j < |tail|
      ensures FirstAt(rs, tail[i].topic) < FirstAt(rs, tail[j].topic)
    {
      assert tail[i] == gs[i + 1] && tail[j] == gs[j + 1];
    }
    forall y | y in tail
      ensures FirstAt(rs, gs[0].topic) < FirstAt(rs, y.topic)
    {
      var k :| 0 <= k < |tail| && tail[k] == y;
      assert gs[k + 1] == y;
    }
  }

  /** An entry whose topic came first, put before an ordered list, keeps
      it ordered. */
  lemma OrderCons(rs: seq<Rec>, h: TopicStat, w: seq<TopicStat>)
    requires FirstSeenOrder(rs, w)
    requires forall y :: y in w ==> FirstAt(rs, h.topic) < FirstAt(rs, y.topic)
    ensures FirstSeenOrder(rs, [h] + w)
  {
    var r := [h] + w;
    forall i, j | 0 <= i < j < |r|
      ensures FirstAt(rs, r[i].topic) < FirstAt(rs, r[j].topic)
    {
      assert r[j] == w[j - 1];
      if i > 0 {
        assert r[i] == w[i - 1];
      } else {
        assert r[j] in w;
      }
    }
  }

  /** Keeping only the entries of one total keeps them in order. */
  lemma {:induction false} WithTotalKeepsOrder(rs: seq<Rec>, gs: seq<TopicStat>, v: int)
    requires FirstSeenOrder(rs, gs)
    ensures FirstSeenOrder(rs, WithTotal(gs, v))
  {
    if |gs| > 0 {
      var tail := gs[1..];
      OrderTail(rs, gs);
      WithTotalKeepsOrder(rs, tail, v);
      var w := WithTotal(tail, v);
      if gs[0].totalMs == v {
        forall y | y in w
          ensures FirstAt(rs, gs[0].topic) < FirstAt(rs, y.topic)
        {
          WithTotalSub(tail, v, y);
        }
        OrderCons(rs, gs[0], w);
        assert WithTotal(gs, v) == [gs[0]] + w;
      } else {
        assert WithTotal(gs, v) == w;
      }
    }
  }

  /** The tie-break of `slowTop3`: among topics of equal total time the
      table lists them in the order of their first records, since the
      `Map` yields them in that order and the sort is stable. */
  lemma TopicStatsTieOrder(rs: seq<Rec>, v: int)
    ensures FirstSeenOrder(rs, WithTotal(TopicStats(rs), v))
  {
    SortDescStable(Group(rs), v);
    WithTotalKeepsOrder(rs, Group(rs), v);
  }

  /** Same entries, so the same per-entry facts and distinct topics. */
  lemma PermutedGroups(rs: seq<Rec>, gs: seq<TopicStat>, ts: seq<TopicStat>)
    requires DistinctTopics(gs) && EntriesMatch(rs, gs) && CoversTopics(rs, gs)
    requires multiset(ts) == multiset(gs)
    ensures DistinctTopics(ts) && EntriesMatch(rs, ts) && CoversTopics(rs, ts)
  {
    forall x | x in ts
      ensures x in gs
    {
      assert x in multiset(ts);
    }
    forall x | x in gs
      ensures x in ts
    {
      assert x in multiset(gs);
    }
    forall i, j | 0 <= i < j < |ts|
      ensures ts[i].topic != ts[j].topic
    {
      if ts[i].topic == ts[j].topic {
        DistinctTopicsSameEntry(gs, ts[i], ts[j]);
        DistinctTopicsDistinct(gs);
        DistinctByMultiset(gs, ts);
        assert false;
      }
    }
    forall t | CountTopic(rs, t) > 0
      ensures exists i :: 0 <= i < |ts| && ts[i].topic == t
    {
      var a :| 0 <= a < |gs| && gs[a].topic == t;
      assert gs[a] in ts;
    }
    forall i | 0 <= i < |ts|
      ensures ts[i].count == CountTopic(rs, ts[i].topic) > 0
      ensures ts[i].totalMs == TopicMs(rs, ts[i].topic)
      ensures ts[i].readMs == TopicReadMs(rs, ts[i].topic)
      ensures ts[i].answerMs == TopicAnswerMs(rs, ts[i].topic)
      ensures ts[i].totalMs == ts[i].readMs + ts[i].answerMs
    {
      assert ts[i] in gs;
      var a :| 0 <= a < |gs| && gs[a] == ts[i];
    }
  }

  lemma DistinctTopicsSameEntry(gs: seq<TopicStat>, x: TopicStat, y: TopicStat)
    requires DistinctTopics(gs)
    requires x in gs && y in gs && x.topic == y.topic
    ensures x == y
  {
    var a :| 0 <= a < |gs| && gs[a] == x;
    var b :| 0 <= b < |gs| && gs[b] == y;
  }

  lemma DistinctTopicsDistinct(gs: seq<TopicStat>)
    requires DistinctTopics(gs)
    ensures Distinct(gs)
  {
  }

  /** The table lists every topic once, with its record count and its
      total, reading and answering time, slowest first, ties in the order
      the topics first occur; counts add up to the number of records and
      times to the session total. */
  lemma TopicStatsCorrect(rs: seq<Rec>)
    ensures SortedDesc(TopicStats(rs))
    ensures GroupsRecords(rs, TopicStats(rs))
    ensures forall v :: FirstSeenOrder(rs, WithTotal(TopicStats(rs), v))
  {
    var gs := Group(rs);
    PermutedGroups(rs, gs, TopicStats(rs));
    SortSums(gs);
    forall v
      ensures FirstSeenOrder(rs, WithTotal(TopicStats(rs), v))
    {
      TopicStatsTieOrder(rs, v);
    }
  }

  // ---------------------------------------------------------------------
  // What the round's end reports

  /** The fields `goNext` merges into the session document when the round
      ends (its status becomes `completed`). */
  datatype SessionFinal = SessionFinal(totalSeconds: int, correctCount: nat, accuracy: real)

  function Finalize(rs: seq<Rec>): (f: SessionFinal)
    ensures f.correctCount == TfCorrectCount(rs) && f.correctCount <= TfCount(rs)
    ensures f.accuracy == Accuracy(rs) && 0.0 <= f.accuracy <= 1.0
    ensures 1000 * f.totalSeconds - 500 <= TotalMs(rs) < 1000 * f.totalSeconds + 500
  {
    SessionFinal(MsToSec(TotalMs(rs)), TfCorrectCount(rs), Accuracy(rs))
  }

  /** The summary screen: total seconds, the TF ratio and the three
      slowest topics. */
  datatype SummaryView = SummaryView(totalSec: int, tfCorrect: nat, tfCount: nat, accPct: int, slowest: seq<TopicStat>)

  /** The summary screen as the page shows it: the "TF correct" figure
      and its percentage come from `correctCount`, which also counts
      revealed cards. */
  function Summarize(rs: seq<Rec>): (v: SummaryView)
    ensures v.tfCorrect <= |rs| && v.tfCount <= |rs|
    ensures v.accPct >= 0
    ensures v.tfCount == 0 ==> v.accPct == 0
    ensures |v.slowest| <= 3 && SortedDesc(v.slowest)
    ensures forall i :: 0 <= i < |v.slowest| ==> v.slowest[i] in TopicStats(rs)
    ensures 1000 * v.totalSec - 500 <= TotalMs(rs) < 1000 * v.totalSec + 500
    ensures v.tfCorrect == TfCorrectCount(rs) + CardCorrectCount(rs)
    ensures v.tfCount == TfCount(rs)
    ensures v.accPct == DisplayedAccPct(rs)
    ensures v.slowest == SlowestThree(rs)
  {
    DisplayedCountSplits(rs);
    SummaryView(MsToSec(TotalMs(rs)), DisplayedCorrectCount(rs), TfCount(rs), DisplayedAccPct(rs), SlowestThree(rs))
  }

  lemma SortedPrefix(ts: seq<TopicStat>, n: nat)
    requires SortedDesc(ts) && n <= |ts|
    ensures SortedDesc(ts[..n])
    ensures forall i :: 0 <= i < n ==> ts[..n][i] == ts[i] && ts[i] in ts
  {
  }

  /** `topicStats.slice(0, 3)`: the first three entries of the sorted
      table, or all of them when there are fewer. */
  function SlowestThree(rs: seq<Rec>): (slowest: seq<TopicStat>)
    ensures |slowest| == Min(3, |TopicStats(rs)|)
    ensures SortedDesc(slowest)
    ensures forall i :: 0 <= i < |slowest| ==> slowest[i] == TopicStats(rs)[i] && slowest[i] in TopicStats(rs)
  {
    var ts := TopicStats(rs);
    SortedPrefix(ts, Min(3, |ts|));
    ts[..Min(3, |ts|)]
  }

  /** The summary screen with the TF ratio counting TF records only, as
      its label and the session document's `correct_count` intend. */
  function CorrectedSummary(rs: seq<Rec>): (v: SummaryView)
    ensures v.tfCorrect <= v.tfCount <= |rs|
    ensures 0 <= v.accPct <= 100
    ensures |v.slowest| <= 3 && SortedDesc(v.slowest)
    ensures forall i :: 0 <= i < |v.slowest| ==> v.slowest[i] in TopicStats(rs)
    ensures 1000 * v.totalSec - 500 <= TotalMs(rs) < 1000 * v.totalSec + 500
    ensures v.tfCorrect == TfCorrectCount(rs) && v.tfCount == TfCount(rs)
    ensures v.accPct == TfAccPct(rs)
    ensures v.slowest == SlowestThree(rs)
  {
    SummaryView(MsToSec(TotalMs(rs)), TfCorrectCount(rs), TfCount(rs), TfAccPct(rs), SlowestThree(rs))
  }

  /** The correction touches only the TF ratio: both views show the same
      total time, TF count and slowest topics, and the shown count exceeds
      the corrected one by exactly the correct CARD records. */
  lemma CorrectionOnlyTouchesRatio(rs: seq<Rec>)
    ensures var shown := Summarize(rs); var fixed := CorrectedSummary(rs);
            && shown.totalSec == fixed.totalSec && shown.tfCount == fixed.tfCount
            && shown.slowest == fixed.slowest
            && shown.tfCorrect == fixed.tfCorrect + CardCorrectCount(rs)
  {
    DisplayedCountSplits(rs);
  }

  /** As shown, one correct TF answer and one revealed card read
      "2 / 1 (200%)"; corrected they read "1 / 1 (100%)". */
  lemma SummariesDisagree(t: Rec, c: Rec)
    requires t.recType == TF && t.isCorrect
    requires c.recType == CARD && c.isCorrect
    ensures Summarize([t, c]).tfCorrect == 2 && Summarize([t, c]).accPct == 200
    ensures CorrectedSummary([t, c]).tfCorrect == 1 && CorrectedSummary([t, c]).accPct == 100
  {
    DisplayedAccPctExceeds100(t, c);
    assert [t, c][..1] == [t];
    assert [t][..0] == [];
    assert TfCorrectCount([t, c]) == 1;
  }

  /** No correct record is a card. */
  ghost predicate NoCorrectCards(rs: seq<Rec>)
  {
    forall i :: 0 <= i < |rs| && rs[i].isCorrect ==> rs[i].recType == TF
  }

  lemma {:induction false} CountsAgreeWithoutCards(rs: seq<Rec>)
    requires NoCorrectCards(rs)
    ensures DisplayedCorrectCount(rs) == TfCorrectCount(rs)
  {
    if |rs| > 0 {
      var init := rs[..|rs| - 1];
      assert NoCorrectCards(init) by {
        forall i | 0 <= i < |init| && init[i].isCorrect
          ensures init[i].recType == TF
        {
          assert init[i] == rs[i];
        }
      }
      CountsAgreeWithoutCards(init);
    }
  }

  /** When no correct record is a card, as in a round of TF questions only,
      the page's summary and the corrected one coincide. */
  lemma SummariesAgreeWithoutCards(rs: seq<Rec>)
    requires NoCorrectCards(rs)
    ensures Summarize(rs) == CorrectedSummary(rs)
  {
    CountsAgreeWithoutCards(rs);
  }
}

=== FILE: text.dfy ===
/** The string helpers of the practice page: `trim`, `toUpperCase` and the
    two wrappers `safeStr` / `safeUpper` built from them (page.js:92-98).
    A missing value (`null`/`undefined`) is the empty string here. */
module Text {

  /** ECMAScript WhiteSpace and LineTerminator code points, which `trim`
      removes from both ends. */
  predicate IsSpace(c: char)
  {
    var n := c as int;
    || 0x09 <= n <= 0x0D || n == 0x20 || n == 0xA0 || n == 0x1680
    || 0x2000 <= n <= 0x200A || n == 0x2028 || n == 0x2029 || n == 0x202F
    || n == 0x205F || n == 0x3000 || n == 0xFEFF
  }

  predicate AllSpace(s: string)
  {
    forall i :: 0 <= i < |s| ==> IsSpace(s[i])
  }

  function TrimStart(s: string): (r: string)
    ensures |r| <= |s| && r == s[|s| - |r|..]
    ensures AllSpace(s[..|s| - |r|])
    ensures r == [] || !IsSpace(r[0])
  {
    if |s| > 0 && IsSpace(s[0]) then
      var r := TrimStart(s[1..]);
      assert s[1..][..|s| - 1 - |r|] == s[1..|s| - |r|];
      LeadingSpace(s, |s| - |r|);
      assert s[1..][|s| - 1 - |r|..] == s[|s| - |r|..];
      r
    else s
  }

  /** A space followed by spaces is all spaces. */
  lemma LeadingSpace(s: string, n: nat)
    requires 0 < n <= |s| && IsSpace(s[0]) && AllSpace(s[1..n])
    ensures AllSpace(s[..n])
  {
    forall i | 0 <= i < n
      ensures IsSpace(s[..n][i])
    {
      if i > 0 {
        assert s[..n][i] == s[1..n][i - 1];
      }
    }
  }

  /** Spaces followed by a space are all spaces. */
  lemma TrailingSpace(s: string, m: nat)
    requires m < |s| && IsSpace(s[|s| - 1]) && AllSpace(s[m..|s| - 1])
    ensures AllSpace(s[m..])
  {
    forall i | 0 <= i < |s| - m
      ensures IsSpace(s[m..][i])
    {
      if i < |s| - 1 - m {
        assert s[m..][i] == s[m..|s| - 1][i];
      }
    }
  }

  function TrimEnd(s: string): (r: string)
    ensures |r| <= |s| && r == s[..|r|]
    ensures AllSpace(s[|r|..])
    ensures r == [] || !IsSpace(r[|r| - 1])
  {
    if |s| > 0 && IsSpace(s[|s| - 1]) then
      var r := TrimEnd(s[..|s| - 1]);
      assert s[..|s| - 1][|r|..] == s[|r|..|s| - 1];
      TrailingSpace(s, |r|);
      assert s[..|s| - 1][..|r|] == s[..|r|];
      r
    else s
  }

  /** `String.prototype.trim`: the longest infix with no space at either end,
      obtained by dropping only spaces. */
  function Trim(s: string): (r: string)
    ensures r == [] || (!IsSpace(r[0]) && !IsSpace(r[|r| - 1]))
    ensures exists a, b :: 0 <= a <= b <= |s| && r == s[a..b]
                           && AllSpace(s[..a]) && AllSpace(s[b..])
  {
    var t := TrimStart(s);
    var r := TrimEnd(t);
    TrimBounds(s, t, r);
    assert r != [] ==> r[0] == t[0];
    r
  }

  /** Cutting spaces from the front and then from the back leaves an infix
      with only spaces outside it. */
  lemma TrimBounds(s: string, t: string, r: string)
    requires |t| <= |s| && t == s[|s| - |t|..] && AllSpace(s[..|s| - |t|])
    requires |r| <= |t| && r == t[..|r|] && AllSpace(t[|r|..])
    ensures exists a, b :: 0 <= a <= b <= |s| && r == s[a..b]
                           && AllSpace(s[..a]) && AllSpace(s[b..])
  {
    var a := |s| - |t|;
    assert r == s[a..a + |r|];
    assert s[a + |r|..] == t[|r|..];
  }

  /** An ASCII lower-case letter. */
  predicate IsLower(c: char)
  {
    'a' <= c <= 'z'
  }

  /** `toUpperCase` on one character, for the ASCII letters: a lower-case
      letter becomes the capital at the same place in the alphabet, every
      other character is left alone, and no lower-case letter remains. */
  function UpperChar(c: char): (d: char)
    ensures IsLower(c) ==> 'A' <= d <= 'Z' && d as int - 'A' as int == c as int - 'a' as int
    ensures !IsLower(c) ==> d == c
    ensures !IsLower(d)
    ensures IsSpace(d) <==> IsSpace(c)
  {
    if 'a' <= c <= 'z' then (c as int - 32) as char else c
  }

  /** `toUpperCase`: position by position, lower-case letters become their
      capitals and everything else is kept. */
  function Upper(s: string): (r: string)
    ensures |r| == |s|
    ensures forall i :: 0 <= i < |s| ==> !IsLower(r[i])
    ensures forall i :: 0 <= i < |s| && !IsLower(s[i]) ==> r[i] == s[i]
    ensures forall i :: 0 <= i < |s| && IsLower(s[i]) ==>
              'A' <= r[i] <= 'Z' && r[i] as int - 'A' as int == s[i] as int - 'a' as int
    ensures forall i :: 0 <= i < |s| ==> r[i] == UpperChar(s[i])
  {
    seq(|s|, i requires 0 <= i < |s| => UpperChar(s[i]))
  }

  /** `safeStr(v)`: `String(v ?? "").trim()`. The whitespace-free infix of
      the value. */
  function SafeStr(s: string): (r: string)
    ensures r == [] || (!IsSpace(r[0]) && !IsSpace(r[|r| - 1]))
    ensures exists a, b :: 0 <= a <= b <= |s| && r == s[a..b]
                           && AllSpace(s[..a]) && AllSpace(s[b..])
  {
    Trim(s)
  }

  /** `safeUpper(v)`: `String(v ?? "").trim().toUpperCase()`. The trimmed
      value, as long, with no lower-case letter and no space at either
      end. */
  function SafeUpper(s: string): (r: string)
    ensures |r| == |SafeStr(s)|
    ensures forall i :: 0 <= i < |r| ==> r[i] == UpperChar(SafeStr(s)[i])
    ensures forall i :: 0 <= i < |r| ==> !IsLower(r[i])
    ensures r == [] || (!IsSpace(r[0]) && !IsSpace(r[|r| - 1]))
  {
    var t := Trim(s);
    var r := Upper(t);
    r
  }

  /** The four letters of "true", each in either case. */
  predicate SpellsTrue(t: string)
  {
    && |t| == 4
    && (t[0] == 't' || t[0] == 'T') && (t[1] == 'r' || t[1] == 'R')
    && (t[2] == 'u' || t[2] == 'U') && (t[3] == 'e' || t[3] == 'E')
  }

  /** A character upper-cases to the capital `cap` exactly when it is `cap`
      or its lower-case form. */
  lemma UpperCharIs(c: char, cap: char)
    requires 'A' <= cap <= 'Z'
    ensures UpperChar(c) == cap <==> c == cap || c as int == cap as int + 32
  {
  }

  /** Upper-casing gives "TRUE" exactly for the spellings of "true" in any
      mix of case. */
  lemma UpperIsTrue(t: string)
    ensures Upper(t) == "TRUE" <==> SpellsTrue(t)
  {
    var u := Upper(t);
    if |t| == 4 {
      UpperCharIs(t[0], 'T');
      UpperCharIs(t[1], 'R');
      UpperCharIs(t[2], 'U');
      UpperCharIs(t[3], 'E');
      if SpellsTrue(t) {
        assert u == "TRUE";
      }
    }
  }

  /** `safeUpper(key) === "TRUE"`, the test an answer key passes to mean
      true, holds exactly when the trimmed key spells "true" in any case. */
  lemma SafeUpperTrueIff(s: string)
    ensures SafeUpper(s) == "TRUE" <==> SpellsTrue(SafeStr(s))
  {
    UpperIsTrue(Trim(s));
  }

  /** Trimming twice changes nothing, so `safeStr` is a normal form. */
  lemma TrimIdempotent(s: string)
    ensures Trim(Trim(s)) == Trim(s)
  {
    var r := Trim(s);
    if |r| > 0 {
      assert TrimStart(r) == r;
      assert TrimEnd(r) == r;
    }
  }

  /** Upper-casing twice changes nothing. */
  lemma UpperIdempotent(s: string)
    ensures Upper(Upper(s)) == Upper(s)
  {
  }

  /** Surrounding whitespace and letter case do not matter to `safeUpper`. */
  lemma SafeUpperPadded()
    ensures SafeStr(" true\n") == "true"
    ensures SafeUpper(" true\n") == "TRUE"
  {
    TrimPadded();
    assert SpellsTrue("true");
    SafeUpperTrueIff(" true\n");
  }

  lemma TrimPadded()
    ensures Trim(" true\n") == "true"
  {
    PaddedFront();
    PaddedBack();
  }

  lemma PaddedFront()
    ensures TrimStart(" true\n") == "true\n"
  {
    TrimStartFirst(" true\n");
    assert IsSpace(" true\n"[0]) && " true\n"[1..] == "true\n";
    TrimStartFirst("true\n");
    assert !IsSpace("true\n"[0]);
  }

  lemma PaddedBack()
    ensures TrimEnd("true\n") == "true"
  {
    TrimEndLast("true\n");
    assert IsSpace("true\n"[4]) && "true\n"[..4] == "true";
    TrimEndLast("true");
    assert !IsSpace("true"[3]);
  }

  /** One step of `TrimStart`: a leading space is dropped, anything else
      ends the scan. */
  lemma TrimStartFirst(s: string)
    requires |s| > 0
    ensures TrimStart(s) == if IsSpace(s[0]) then TrimStart(s[1..]) else s
  {
  }

  /** One step of `TrimEnd`: a trailing space is dropped, anything else
      ends the scan. */
  lemma TrimEndLast(s: string)
    requires |s| > 0
    ensures TrimEnd(s) == if IsSpace(s[|s| - 1]) then TrimEnd(s[..|s| - 1]) else s
  {
  }
}

=== FILE: weight.dfy ===
/** `buildStatsMap` (page.js:197-204) and `calcWeight` (page.js:206-227):
    the learner's statistics indexed by question id, and the selection
    weight of a question given its (possibly missing) statistics. */
module Weight {
  import opened Common
  import opened Domain

  /** `statsMap.get(id)`. */
  function Lookup(m: map<string, Stat>, id: string): Option<Stat>
  {
    if id in m then Some(m[id]) else None
  }

  /** No later document carries the same id as `docs[i]`. */
  ghost predicate LastWithId(docs: seq<Stat>, i: int)
    requires 0 <= i < |docs|
  {
    forall j :: i < j < |docs| ==> docs[j].qId != docs[i].qId
  }

  /** `m` indexes `docs`: its keys are exactly the non-missing ids, each
      maps to a document of `docs` with that id, and an id's last document
      is the one kept. */
  ghost predicate IndexesStats(docs: seq<Stat>, m: map<string, Stat>)
  {
    && (forall id :: id in m ==> id != "" && m[id].qId == id && m[id] in docs)
    && (forall i :: 0 <= i < |docs| && docs[i].qId != "" ==> docs[i].qId in m)
    && (forall i :: 0 <= i < |docs| && docs[i].qId != "" && LastWithId(docs, i) ==>
          m[docs[i].qId] == docs[i])
  }

  /** The map from `q_id` to statistics document: documents with a missing
      id are skipped and, among documents sharing an id, the last wins. */
  function BuildStatsMap(docs: seq<Stat>): (m: map<string, Stat>)
    ensures IndexesStats(docs, m)
  {
    if |docs| == 0 then map[]
    else
      var m := BuildStatsMap(docs[..|docs| - 1]);
      StatsMapStep(docs, m);
      var s := docs[|docs| - 1];
      if s.qId == "" then m else m[s.qId := s]
  }

  lemma StatsMapStep(docs: seq<Stat>, m: map<string, Stat>)
    requires |docs| > 0
    requires IndexesStats(docs[..|docs| - 1], m)
    ensures var s := docs[|docs| - 1];
            IndexesStats(docs, if s.qId == "" then m else m[s.qId := s])
  {
    var n := |docs| - 1;
    var init := docs[..n];
    var s := docs[n];
    var m' := if s.qId == "" then m else m[s.qId := s];
    assert forall i :: 0 <= i < n ==> init[i] == docs[i];
    forall id | id in m'
      ensures id != "" && m'[id].qId == id && m'[id] in docs
    {
      if s.qId == "" || id != s.qId {
        assert m'[id] == m[id] && m[id] in init;
      }
    }
    forall i | 0 <= i < |docs| && docs[i].qId != ""
      ensures docs[i].qId in m'
    {
      if i < n {
        assert init[i].qId in m;
      }
    }
    forall i | 0 <= i < |docs| && docs[i].qId != "" && LastWithId(docs, i)
      ensures m'[docs[i].qId] == docs[i]
    {
      if i < n {
        assert docs[n].qId != docs[i].qId;
        assert LastWithId(init, i);
        assert m[init[i].qId] == init[i];
      }
    }
  }

  /** `wrong / attempts`, or 0 for a question never attempted. */
  function WrongRate(attempts: int, wrong: int): (r: real)
    ensures attempts <= 0 ==> r == 0.0
    ensures 0 <= wrong <= attempts ==> 0.0 <= r <= 1.0
    ensures attempts > 0 ==> r * attempts as real == wrong as real
  {
    if attempts > 0 then wrong as real / attempts as real else 0.0
  }

  /** The statistics a question has before its first answer. */
  function FreshStat(q: Question): (s: Stat)
    ensures s.attempts == 0 && s.wrong == 0 && s.familiarity == Unknown
  {
    Stat("", q.qId, "", "", 0, 0, NotApplicable, Unknown, None)
  }

  /** The inputs for which the weight is at least its base of 1. */
  predicate WeightInputsOk(q: Question, stat: Option<Stat>)
  {
    q.teacherPriority >= 0.0 && (stat.None? || CountsOk(stat.value))
  }

  /** `calcWeight(q, stat)` with `u` the `Math.random()` of its jitter term.
      There is no factor for `mastered`: only `needs_practice` changes the
      weight, by +3. */
  function CalcWeight(q: Question, stat: Option<Stat>, u: real): (w: real)
    requires IsDraw(u)
    ensures WeightInputsOk(q, stat) ==> 1.0 <= w < 10.5 + 2.0 * q.teacherPriority
  {
    var attempts := if stat.Some? then stat.value.attempts else 0;
    var wrong := if stat.Some? then stat.value.wrong else 0;
    var wrongRate := WrongRate(attempts, wrong);
    var familiarity := if stat.Some? then stat.value.familiarity else Unknown;
    var needsPractice := if familiarity == NeedsPractice then 1.0 else 0.0;
    var forceRepeat := q.forceRepeat;
    1.0
      + 4.0 * wrongRate
      + 3.0 * needsPractice
      + 2.0 * q.teacherPriority
      + (if forceRepeat then 2.0 else 0.0)
      + u * 0.5
  }

  /** The jitter moves the weight up from its deterministic value by less
      than 0.5, so two draws differ by less than 0.5. */
  lemma JitterBand(q: Question, stat: Option<Stat>, u: real, v: real)
    requires IsDraw(u) && IsDraw(v)
    ensures CalcWeight(q, stat, 0.0) <= CalcWeight(q, stat, u) < CalcWeight(q, stat, 0.0) + 0.5
    ensures CalcWeight(q, stat, u) - CalcWeight(q, stat, v) < 0.5
  {
  }

  /** A missing statistics document weighs exactly like a fresh one. */
  lemma MissingStatIsFresh(q: Question, u: real)
    requires IsDraw(u)
    ensures CalcWeight(q, None, u) == CalcWeight(q, Some(FreshStat(q)), u)
  {
  }

  /** `mastered` weighs exactly like `familiar` or `unknown`: the weight has
      no de-prioritising factor for it. */
  lemma MasteredNotDiscounted(q: Question, s: Stat, u: real)
    requires IsDraw(u)
    ensures CalcWeight(q, Some(s.(familiarity := Mastered)), u)
         == CalcWeight(q, Some(s.(familiarity := Familiar)), u)
    ensures CalcWeight(q, Some(s.(familiarity := Mastered)), u)
         == CalcWeight(q, Some(s.(familiarity := Unknown)), u)
  {
  }

  /** `needs_practice` adds exactly 3 over any other familiarity. */
  lemma NeedsPracticeAddsThree(q: Question, s: Stat, u: real)
    requires IsDraw(u)
    requires s.familiarity != NeedsPractice
    ensures CalcWeight(q, Some(s.(familiarity := NeedsPractice)), u)
         == CalcWeight(q, Some(s), u) + 3.0
  {
  }

  /** `force_repeat` adds exactly 2 and teacher priority counts twice. */
  lemma AuthoringBoosts(q: Question, stat: Option<Stat>, u: real, d: real)
    requires IsDraw(u)
    ensures !q.forceRepeat ==>
              CalcWeight(q.(forceRepeat := true), stat, u) == CalcWeight(q, stat, u) + 2.0
    ensures CalcWeight(q.(teacherPriority := q.teacherPriority + d), stat, u)
         == CalcWeight(q, stat, u) + 2.0 * d
  {
  }

  /** More wrong answers over the same attempts never lower the weight. */
  lemma MoreWrongWeighsMore(q: Question, s: Stat, extra: nat, u: real)
    requires IsDraw(u)
    requires s.attempts > 0
    ensures CalcWeight(q, Some(s), u) <= CalcWeight(q, Some(s.(wrong := s.wrong + extra)), u)
  {
    var a := s.attempts as real;
    var r0 := WrongRate(s.attempts, s.wrong);
    var r1 := WrongRate(s.attempts, s.wrong + extra);
    SplitRatio(s.wrong as real, extra as real, a);
    assert r1 == r0 + extra as real / a;
  }

  lemma SplitRatio(w: real, e: real, a: real)
    requires a > 0.0 && e >= 0.0
    ensures (w + e) / a == w / a + e / a
    ensures e / a >= 0.0
  {
  }
}
